=== FILE: README.md ===
# SimplyPlaylist playlist synchronisation, modelled in Dafny

SimplyPlaylist builds one catalog playlist from a text file of artist names.
For every artist it:

1. resolves the artist with one or two searches;
2. takes the artist's top tracks, cut to a maximum;
3. concatenates all of them;
4. looks the playlist up by name and then does one of two things:
   - if the playlist exists, clears it, updates its description and adds the tracks;
   - otherwise, creates a public playlist and adds the tracks to it.

The result is the playlist's URL.

This project models that core as pure functions over an abstract, already
connected catalog:

- `Catalog` holds the fixed replies of the remote service:
  - the artists found per query;
  - the top tracks per artist id;
  - the pages of the user's playlists;
  - the pages of each playlist's items;
  - the user id;
  - the id a creation hands out.

  It also holds the set of calls that raise.
- Every operation returns a `Traced` value: the result together with the
  calls it issued, in order. A call that raises is in the log.
- A separate state model (`PlaylistEffects`) says what the playlist writes
  do to a playlist's description and items. It is used to state replace
  semantics and which playlists are touched.

The modules follow the program:

| file | module | models |
|---|---|---|
| `wrappers.dfy` | `Wrappers` | `Option`, and `Result` (a value, or "raised") |
| `text.dfy` | `Text` | `str.strip()`, `str.lower()`, `str.startswith()`, `str(n)` |
| `entities.dfy` | `Entities` | `Artist`, `Track`, `Playlist` |
| `catalog.dfy` | `Catalog` | the remote replies, the calls, the trace |
| `batching.dfy` | `Batching` | slicing a list into batches of 100 |
| `pagination.dfy` | `Pagination` | the two paged reads (50 playlists, 100 items per page) |
| `spotify_repository.dfy` | `SpotifyRepository` | `find_artist` … `add_tracks_to_playlist` |
| `file_loader.dfy` | `FileLoader` | `load_artists` |
| `playlist_effects.dfy` | `PlaylistEffects` | the effect of removal, addition and description change |
| `use_cases.dfy` | `UseCases` | both use cases' `execute` |

Three behaviours of the program are easy to miss; the model follows the code:

- **Null-track items survive a clear.** Clearing removes by URI only the
  items whose track is not null. A replaced playlist therefore keeps its
  null-track items, ahead of the new tracks (`PlaylistEffects.Replaced`).
- **An empty page ends the item reading.** Items on later pages are never
  read, even when the empty page announces a next one.
- **Ids may be empty.** Nothing forces a catalog id to be non-empty.
  Python's truthiness decides instead:
  - an artist with an empty id gets no top-track call;
  - a playlist found by name with an empty id leads to the creation branch.

## Model

| member | source | states |
|---|---|---|
| Text.SkipSpace | infrastructure/file_loader.py:39 | the left cut of `strip()`: everything skipped is whitespace and the first kept character is not |
| Text.SkipSpaceBack | infrastructure/file_loader.py:39 | the right cut of `strip()`: everything dropped is whitespace and the last kept character is not |
| Text.Strip | infrastructure/spotify_repository.py:92 | the result is an infix of the input with only whitespace around it and no whitespace at either end |
| Text.StripTrimmed | infrastructure/file_loader.py:39 | a string with no whitespace at either end strips to itself |
| Text.StripIdempotent | application/use_cases.py:33-34 | stripping twice equals stripping once, so the repository's second strip changes nothing |
| Text.Lower | infrastructure/spotify_repository.py:107 | lowering keeps the length and maps each character on its own |
| Text.NatToString | application/use_cases.py:133 | the artist count is written with decimal digits and no leading zero |
| Text.DecimalRoundTrip | application/use_cases.py:133 | reading the count back from its text gives the count |
| Entities.NamedArtist | domain/entities.py:9-13 | an artist built from a name alone keeps the name and has no id and no found name |
| Entities.UriTrack | domain/entities.py:17-21 | a track built from a URI alone keeps the URI and has no name and no artist |
| Entities.NewPlaylist | domain/entities.py:25-30 | a new playlist keeps its name and description, has no id and has an empty track list |
| Entities.Uris | infrastructure/spotify_repository.py:256 | the URI list has one entry per track, in track order |
| Batching.BatchesFrom | infrastructure/spotify_repository.py:243-244 | the batches from an offset rebuild the rest of the list, number ceil(rest/100), and are each non-empty and at most 100 long |
| Batching.Batches | infrastructure/spotify_repository.py:257-259 | ceil(L/100) batches of 1 to 100 URIs which, laid end to end, give back the list |
| Pagination.LastPage | infrastructure/spotify_repository.py:226-239 | the page after which the loop leaves is the first from the start that has no `next` or, for items, is empty |
| Pagination.CallsBetween | infrastructure/spotify_repository.py:173-176 | page reads go in order, each offset one page size past the previous |
| Pagination.ReadPages | infrastructure/spotify_repository.py:172-178 | either every page up to the last is read once, in order, and its items returned concatenated, or the first raising read raises with no call after it |
| Pagination.ReadPagesCalls | infrastructure/spotify_repository.py:226-239 | whatever the outcome, the calls read consecutive pages from the first |
| SpotifyRepository.SearchQueries | infrastructure/spotify_repository.py:93-96 | exactly two queries, in order: the artist-field query carrying the cleaned name, then the cleaned name alone |
| SpotifyRepository.ExactMatchFrom | infrastructure/spotify_repository.py:106-107 | the scan finds the first result whose name equals the target ignoring case, or reports that none does |
| SpotifyRepository.Choose | infrastructure/spotify_repository.py:105-120 | the first case-insensitive exact match wins, and with no match the first result wins, even over closer later ones |
| SpotifyRepository.TryQueries | infrastructure/spotify_repository.py:98-124 | at most one search per query, only searches, and a found artist carries the cleaned name and an id |
| SpotifyRepository.FindArtist | infrastructure/spotify_repository.py:92-124 | one or two searches and nothing else, and a found artist is named after the stripped input |
| SpotifyRepository.FindArtistQueriesInOrder | infrastructure/spotify_repository.py:92-124 | if the scoped query answers, it decides and the bare query is never issued; otherwise the bare query decides; if neither answers (raise or empty), the result is no artist after both searches |
| SpotifyRepository.TryQueriesFirst | infrastructure/spotify_repository.py:98-103 | a query that raises or returns nothing passes on to the next one |
| SpotifyRepository.SlicePrefix | infrastructure/spotify_repository.py:147 | Python's `[:n]` is a prefix of length min(n, len), or len+n clipped at 0 for a negative n |
| SpotifyRepository.ToTrack | infrastructure/spotify_repository.py:148-152 | a track has the entry's URI and title, and the first artist's name or none when the entry lists no artist |
| SpotifyRepository.ToTracks | infrastructure/spotify_repository.py:147-152 | one track per catalog entry, in catalog order |
| SpotifyRepository.GetArtistTopTracks | infrastructure/spotify_repository.py:137-156 | no id means no call and no tracks; a raising call means no tracks; otherwise a prefix of the catalog list of length min(max, len), in catalog order |
| SpotifyRepository.FirstNamedFrom | infrastructure/spotify_repository.py:180-184 | the id of the first playlist named exactly as asked (case counts), or none when none is |
| SpotifyRepository.FindPlaylistByName | infrastructure/spotify_repository.py:168-184 | all pages are read until one without `next`, and the read succeeds iff no page read raises; the first exact name match over the concatenated pages wins, and none is returned only when no playlist has that name |
| SpotifyRepository.CreatePlaylist | infrastructure/spotify_repository.py:196-203 | asks for the user, then creates a public playlist with the given name and description; succeeds iff neither call raises; returns the id handed out |
| SpotifyRepository.UpdatePlaylist | infrastructure/spotify_repository.py:213 | one details call carrying the new description and nothing about the name; raises iff that call does |
| SpotifyRepository.BatchCallsAreBatched | infrastructure/spotify_repository.py:242-245 | the batch calls number ceil(L/100), carry at most 100 URIs each, and their payloads concatenate to the URI list |
| SpotifyRepository.SendBatches | infrastructure/spotify_repository.py:258-260 | succeeds iff no batch call raises, sending every batch in order; otherwise it stops at the first raising batch |
| SpotifyRepository.SendBatchesSendTo | infrastructure/spotify_repository.py:243-245 | every call sent is a batch call of the given kind to the given playlist |
| SpotifyRepository.TrackUris | infrastructure/spotify_repository.py:232 | only non-null tracks' URIs are collected, and nothing is collected iff every item is null |
| SpotifyRepository.TrackUrisAppend | infrastructure/spotify_repository.py:232 | the collection decides each item on its own and keeps the items' order: collecting a split list gives both parts' URIs, in order |
| SpotifyRepository.TrackUrisSingle | infrastructure/spotify_repository.py:232 | one item gives its URI when its track is not null and nothing otherwise; with `TrackUrisAppend`, this fixes the collected list exactly |
| SpotifyRepository.RemoveCollected | infrastructure/spotify_repository.py:241-245 | removal succeeds iff no batch raises, and the removal batches are correctly batched and sent only to that playlist; when a batch raises, the batches up to the first raising one were sent, in order, and no later one |
| SpotifyRepository.ClearPlaylist | infrastructure/spotify_repository.py:222-246 | the first raising page read ends the clear: no later page is read and nothing is removed; with no non-null track there is no removal call; otherwise, after every read, the collected URIs are removed in batches, and a raising batch ends the clear with no later batch sent |
| SpotifyRepository.RemoveListed | infrastructure/spotify_repository.py:241-245 | after the reads, a raising read ends the clear, no track means no removal call, and otherwise the removal calls follow the reads |
| SpotifyRepository.ClearPlaylistCallsOnly | infrastructure/spotify_repository.py:222-245 | clearing only reads the given playlist's items and removes from that playlist |
| SpotifyRepository.AddTracksToPlaylist | infrastructure/spotify_repository.py:256-261 | the URIs go out in ceil(L/100) batches that concatenate to the track list; success iff no batch raises, else the first raising batch ends it |
| FileLoader.StripAll | infrastructure/file_loader.py:38-39 | every line is stripped, in file order |
| FileLoader.KeepNames | infrastructure/file_loader.py:41-42 | every kept entry is non-empty, does not start with `#`, and comes from the input |
| FileLoader.ArtistLines | infrastructure/file_loader.py:36-43 | every name is a stripped line of the file, non-empty and not starting with `#` |
| FileLoader.ArtistLinesStripped | infrastructure/file_loader.py:38-39 | every returned name is already stripped |
| FileLoader.KeepNamesAppend | infrastructure/file_loader.py:41-42 | the filter decides each entry alone and keeps order |
| FileLoader.ArtistLinesAppend | infrastructure/file_loader.py:36-43 | the names of a file split in two are the names of the first part followed by those of the second |
| FileLoader.ArtistLinesSingle | infrastructure/file_loader.py:38-42 | one line gives its stripped text iff that is non-empty and not a comment, else nothing; with `ArtistLinesAppend` this makes the result exactly the order-preserving subsequence |
| FileLoader.LoadArtists | infrastructure/file_loader.py:32-43 | a missing file gives the five example artists in their declared order; a present file gives stripped, non-empty, non-comment lines |
| PlaylistEffects.Without | infrastructure/spotify_repository.py:245 | removing all occurrences keeps exactly the items not carrying one of the URIs, and never grows the list |
| PlaylistEffects.WithoutAppend | infrastructure/spotify_repository.py:245 | removal decides each item on its own and keeps the survivors in their order: removing from a split list gives both parts' survivors, in order |
| PlaylistEffects.Nulls | infrastructure/spotify_repository.py:232 | the items left aside by the URI collection are null-track items, and every one of them is kept: they and the collected URIs together account for every item |
| PlaylistEffects.AsItems | infrastructure/spotify_repository.py:260 | adding URIs adds one item per URI, in order |
| PlaylistEffects.Apply | infrastructure/spotify_repository.py:213-260 | a call that does not change the playlist leaves it as it was |
| PlaylistEffects.WithoutTwice | infrastructure/spotify_repository.py:243-245 | two removal batches in a row remove their union |
| PlaylistEffects.WithoutCovering | infrastructure/spotify_repository.py:232-245 | removing URIs that cover every non-null item leaves exactly the null-track items |
| PlaylistEffects.TrackUrisCover | infrastructure/spotify_repository.py:232 | the collected URIs cover every item that has a track |
| PlaylistEffects.ReplaceIdempotent | application/use_cases.py:140-166 | replacing twice with the same tracks and description equals replacing once |
| PlaylistEffects.RemovalBatches | infrastructure/spotify_repository.py:243-245 | all the removal batches together remove the URIs of every batch |
| PlaylistEffects.AdditionBatches | infrastructure/spotify_repository.py:258-260 | the addition batches together append every URI, in order |
| PlaylistEffects.ClearPlaylistEffect | infrastructure/spotify_repository.py:222-245 | a clear that succeeds leaves exactly the null-track items and keeps the description |
| PlaylistEffects.ClearChangesOnlyItsPlaylist | infrastructure/spotify_repository.py:222-245 | clearing changes no other playlist, whether or not a call raises |
| PlaylistEffects.UpdateChangesOnlyItsPlaylist | infrastructure/spotify_repository.py:213 | updating changes no other playlist |
| PlaylistEffects.AddChangesOnlyItsPlaylist | infrastructure/spotify_repository.py:256-260 | adding changes no other playlist |
| PlaylistEffects.UpdatePlaylistEffect | infrastructure/spotify_repository.py:213 | an update that succeeds sets the description and keeps the items |
| PlaylistEffects.AddTracksEffect | infrastructure/spotify_repository.py:256-260 | an addition that succeeds appends the tracks' URIs in order and keeps everything else |
| UseCases.FindArtistOfStrippedName | application/use_cases.py:33-34 | handing the repository the stripped name resolves the same artist as the raw name |
| UseCases.TracksOfFound | application/use_cases.py:36-52 | no artist means no tracks and no further call; otherwise at most `max` tracks, issued after the lookup's calls |
| UseCases.SearchArtistTracks | application/use_cases.py:32-56 | the search issues only search and top-track calls and returns at most `max` tracks |
| UseCases.SearchArtistTracksSteps | application/use_cases.py:33-52 | no artist gives `[]` and no top-track call; a hit returns the artist's top tracks unchanged, after the lookup |
| UseCases.SearchArtistTracksFromCatalog | application/use_cases.py:45-52 | every returned track is, position by position, the resolved artist's catalog top track |
| UseCases.GatherFlatten | application/use_cases.py:116-121 | the gathered tracks are each name's search result laid end to end in name order, and so are the calls |
| UseCases.GatherAppend | application/use_cases.py:116-121 | gathering over two lists concatenates tracks and calls |
| UseCases.GatherBound | application/use_cases.py:116-121 | with at most `max` tracks per search, the total is at most `max` per artist |
| UseCases.GatherOnlySearchCalls | application/use_cases.py:116-121 | searching searches only |
| UseCases.GatherSkipsEmpty | application/use_cases.py:119-121 | an artist whose search is empty contributes nothing |
| UseCases.CollectTracks | application/use_cases.py:113-121 | collecting issues only search and top-track calls |
| UseCases.CollectTracksFlatten | application/use_cases.py:116-121 | the aggregate is exactly each artist's `SearchArtistTracks` result concatenated in artist order, with nothing dropped or reordered; the calls likewise |
| UseCases.CollectTracksSingle | application/use_cases.py:118-120 | a single artist contributes exactly what its search returns |
| UseCases.CollectTracksAppend | application/use_cases.py:116-121 | the aggregate is the concatenation, in artist order, of each artist's tracks |
| UseCases.CollectTracksBound | application/use_cases.py:116-121 | each artist contributes at most `max` tracks |
| UseCases.CollectTracksKeepsDuplicates | application/use_cases.py:119-120 | no deduplication: artists listed twice contribute their tracks twice |
| UseCases.CollectTracksSkipsEmpty | application/use_cases.py:119-121 | an artist whose search is empty contributes nothing |
| UseCases.Description | application/use_cases.py:133 | the description is the fixed text around the artist count, whose digits read back as the count |
| UseCases.PlaylistUrl | application/use_cases.py:168 | the URL starts with the fixed prefix, and the id can be read back from it unchanged |
| UseCases.AndThen | application/use_cases.py:135-179 | statements of the `try` run in order; the block succeeds iff every statement does, and the first raise ends it |
| UseCases.ClearCreatesNothing | application/use_cases.py:140-143 | clearing never creates a playlist |
| UseCases.ReplaceTracks | application/use_cases.py:140-166 | the existing-playlist branch creates nothing, changes no other playlist, and returns that id |
| UseCases.ReplaceTracksSteps | application/use_cases.py:140-166 | clear, update and add run in order, each only if the previous did not raise, and the branch succeeds iff all three do |
| UseCases.ReplaceTracksEffect | application/use_cases.py:140-166 | replace, not merge: afterwards the playlist holds the new description, its null-track items, then exactly the given tracks in order |
| UseCases.FillCreated | application/use_cases.py:157-166 | a raising creation ends the branch; otherwise the tracks go to the new id, which is the result |
| UseCases.FillCreatedAdds | application/use_cases.py:157-166 | after a successful creation the branch issues exactly the addition calls and succeeds iff they do |
| UseCases.CreateWithTracks | application/use_cases.py:152-166 | the new-playlist branch only asks for the user, creates and adds, and changes no playlist but the new one |
| UseCases.CreateOnlyCreates | infrastructure/spotify_repository.py:196-203 | creation only asks for the user and creates, changes no existing playlist, and yields the id handed out |
| UseCases.AddOnlyAdds | infrastructure/spotify_repository.py:256-260 | adding issues only addition calls |
| UseCases.CreateWithTracksEffect | application/use_cases.py:152-166 | the branch succeeds iff the creation and every addition do; the calls start with the user and a public creation under the name and description; the new playlist holds exactly the tracks, in order |
| UseCases.Synchronise | application/use_cases.py:135-179 | a raising lookup ends the step with no further call |
| UseCases.SynchroniseBranches | application/use_cases.py:137-157 | a playlist found with a non-empty id takes the replace branch; otherwise the creation branch; the lookup comes first |
| UseCases.LookupChangesNothing | infrastructure/spotify_repository.py:168-178 | looking a playlist up changes none |
| UseCases.SynchroniseChangesOnlyTarget | application/use_cases.py:135-166 | the step changes no playlist but its target, whatever raises |
| UseCases.SynchroniseReplaces | application/use_cases.py:137-166 | on an existing playlist, a successful step yields that playlist's id and leaves it replaced by exactly the given tracks |
| UseCases.SynchroniseIdempotent | application/use_cases.py:137-166 | after a successful step, replacing again with the same tracks changes nothing |
| UseCases.SynchroniseTwice | application/use_cases.py:137-166 | a second run of the whole step, in which the lookup finds the same playlist and the item pages list what the first run left, targets that playlist and changes nothing |
| UseCases.Declined | application/use_cases.py:103-107 | the run is declined exactly when confirmation is asked and the answer is neither `o` nor `O` |
| UseCases.Publish | application/use_cases.py:127-179 | no tracks means no result and no further call; any result is a playlist URL |
| UseCases.Execute | application/use_cases.py:97-179 | a declined confirmation makes no catalog call; no tracks means no result and no call beyond the searches; any result is a playlist URL |
| UseCases.ExecuteSynchronises | application/use_cases.py:135-179 | once tracks are found, the result is the URL of the synchronised playlist, or none exactly when a call of the step raised |
| UseCases.SearchesChangeNothing | application/use_cases.py:113-121 | searching changes no playlist |
| UseCases.PublishChangesOnlyTarget | application/use_cases.py:127-179 | publishing changes no playlist but the target |
| UseCases.ExecuteChangesOnlyTarget | application/use_cases.py:97-179 | a run changes no playlist but the target, whatever raises |
| UseCases.ExecuteWithoutTracksChangesNothing | application/use_cases.py:127-129 | a run that finds no track changes no playlist at all |

## Left out

- Connection and authentication (`connect`, the lazy client, `get_current_user`) are left out. Configuration loading, the console entry points and the abstract repository interfaces are left out too. The catalog is a value that is already connected.
- All console output, and the writing of the example file when the artist file is missing. The answer to the confirmation prompt is a parameter, and the file is given as `Missing` or as its lines.
- The real behaviour of the remote service is not modelled. Removal, addition, description change and creation are recorded calls. `PlaylistEffects` maps each call to a simple state update. Pages are a finite sequence; a page past its end reads as empty with no next page.
- `is_update` only selects which message is printed, so it is not modelled.
- Text.Lower: maps only ASCII and Latin-1 capitals. Python's `lower()` covers all of Unicode.
- SpotifyRepository.FindArtist: only a raising search call is an error. A malformed reply (a missing key) that Python would raise and catch is not modelled.
- UseCases.SearchArtistTracks: the `except` block that returns `[]` is not modelled. Both repository calls already turn their errors into "no artist" or "no tracks", so nothing reaches it.
- PlaylistEffects.ClearPlaylistEffect: holds only when the item pages read list the playlist's contents. The catalog's replies are not tied to the state model.
- UseCases.ReplaceTracksEffect: holds only when the item pages that clearing reads list the playlist's contents, for the same reason.
- UseCases.SynchroniseReplaces: holds only when the item pages that clearing reads list the target's contents, for the same reason.
- UseCases.SynchroniseIdempotent: carries the same listed-items condition as UseCases.SynchroniseReplaces, on which it rests.
- UseCases.SynchroniseTwice: needs the second run's catalog to find the same playlist and to list the first run's result as its items. The catalog's replies are not tied to the state model.
- UseCases.CreateWithTracksEffect: assumes a created playlist starts empty under the given description. The creation call is not otherwise interpreted.
- The `Playlist.tracks` field is never filled by the program and is carried unused.

=== FILE: batching.dfy ===
/** Fixed-size batching of a list, as both the removal and the addition of
    playlist items do it: `for i in range(0, len(xs), 100): xs[i:i + 100]`. */
module Batching {

  /** The most items one catalog call may carry. */
  const BatchSize: nat := 100

  function Min(a: int, b: int): int {
    if a <= b then a else b
  }

  function Max(a: int, b: int): int {
    if a >= b then a else b
  }

  /** `ceil(n / d)`. */
  function CeilDiv(n: nat, d: nat): nat
    requires d > 0
  {
    (n + d - 1) / d
  }

  /** The batches laid end to end. */
  function Flatten<T>(bs: seq<seq<T>>): seq<T> {
    if |bs| == 0 then [] else bs[0] + Flatten(bs[1..])
  }

  /** The batches of `xs` that start at offsets `i`, `i + 100`, ... below
      `|xs|`; each is the slice `xs[i:i + 100]`, clipped at the end. */
  function BatchesFrom<T>(xs: seq<T>, i: nat): (r: seq<seq<T>>)
    requires i <= |xs|
    ensures Flatten(r) == xs[i..]
    ensures |r| == CeilDiv(|xs| - i, BatchSize)
    ensures forall k :: 0 <= k < |r| ==> 0 < |r[k]| <= BatchSize
    decreases |xs| - i
  {
    if i == |xs| then []
    else
      var j := Min(i + BatchSize, |xs|);
      var rest := BatchesFrom(xs, j);
      assert xs[i..j] + xs[j..] == xs[i..];
      [xs[i..j]] + rest
  }

  /** The batches of a whole list: ceil(|xs| / 100) non-empty batches of at
      most 100 items, which laid end to end give back `xs`. */
  function Batches<T>(xs: seq<T>): (r: seq<seq<T>>)
    ensures Flatten(r) == xs
    ensures |r| == CeilDiv(|xs|, BatchSize)
    ensures forall k :: 0 <= k < |r| ==> 0 < |r[k]| <= BatchSize
  {
    BatchesFrom(xs, 0)
  }

  lemma {:induction false} FlattenAppend<T>(a: seq<seq<T>>, b: seq<seq<T>>)
    ensures Flatten(a + b) == Flatten(a) + Flatten(b)
    decreases |a|
  {
    if |a| > 0 {
      assert (a + b)[1..] == a[1..] + b;
      FlattenAppend(a[1..], b);
    } else {
      assert a + b == b;
    }
  }

  /** Concatenation regroups freely. */
  lemma ConcatAssociative<T>(x: seq<T>, y: seq<T>, z: seq<T>)
    ensures (x + y) + z == x + (y + z)
  {
  }
}

=== FILE: catalog.dfy ===
/** The streaming catalog, seen by the program only through the calls it makes.

    A catalog is a fixed value: the replies it gives to each read, the id it
    hands out for a new playlist, and the set of calls that raise. Every
    operation of the model returns, beside its value, the log of the catalog
    calls it issued, in order; a call that raises is in the log too. */
module Catalog {
  import opened Wrappers

  /** One result of an artist search. */
  datatype ArtistHit = ArtistHit(id: string, name: string)

  /** One entry of an artist's top tracks: its URI, title and the names of
      its artists, main artist first. */
  datatype TrackHit = TrackHit(uri: string, name: string, artistNames: seq<string>)

  /** One entry of the current user's playlists. */
  datatype PlaylistHit = PlaylistHit(id: string, name: string)

  /** One page of a listing: its items and whether the catalog announces a
      further page (a non-null `next`). */
  datatype Page<T> = Page(items: seq<T>, hasNext: bool)

  /** A catalog call, with the arguments that matter. Searches are always of
      type artist. A playlist item is the URI of its track, or `None` when the
      catalog reports the item's track as null. */
  datatype Call =
    | Search(query: string, limit: nat)
    | ArtistTopTracks(artistId: string)
    | CurrentUserPlaylists(limit: nat, offset: nat)
    | CurrentUser
    | UserPlaylistCreate(user: string, name: string, description: string, public: bool)
    | PlaylistChangeDetails(playlistId: string, description: string)
    | PlaylistItems(playlistId: string, limit: nat, offset: nat)
    | RemoveAllOccurrences(playlistId: string, uris: seq<string>)
    | AddItems(playlistId: string, uris: seq<string>)

  datatype Catalog = Catalog(
    searchResults: map<string, seq<ArtistHit>>,
    topTracks: map<string, seq<TrackHit>>,
    playlistPages: seq<Page<PlaylistHit>>,
    itemPages: map<string, seq<Page<Option<string>>>>,
    userId: string,
    createdId: string,
    failing: set<Call>)
  {
    /** Whether issuing `call` raises. */
    predicate Fails(call: Call) {
      call in failing
    }

    /** The artists a search query returns; an unknown query returns none. */
    function SearchReply(query: string): seq<ArtistHit> {
      if query in searchResults then searchResults[query] else []
    }

    /** The top tracks of an artist id; an unknown id has none. */
    function TopTracksOf(artistId: string): seq<TrackHit> {
      if artistId in topTracks then topTracks[artistId] else []
    }

    /** The pages of a playlist's items; an unknown playlist has none. */
    function ItemPagesOf(playlistId: string): seq<Page<Option<string>>> {
      if playlistId in itemPages then itemPages[playlistId] else []
    }
  }

  /** A value together with the catalog calls issued to compute it. */
  datatype Traced<T> = Traced(value: T, calls: seq<Call>)

  /** The calls made while resolving artists and collecting their tracks. */
  predicate IsSearchCall(call: Call) {
    call.Search? || call.ArtistTopTracks?
  }

  predicate OnlySearchCalls(calls: seq<Call>) {
    forall k :: 0 <= k < |calls| ==> IsSearchCall(calls[k])
  }

  /** The calls that change a playlist. */
  predicate IsPlaylistWrite(call: Call) {
    call.UserPlaylistCreate? || call.PlaylistChangeDetails? || call.RemoveAllOccurrences? || call.AddItems?
  }
}

=== FILE: entities.dfy ===
/** The domain records: an artist, a track and a playlist. Optional fields are
    `Option`s; an absent Python default becomes `None`. */
module Entities {
  import opened Wrappers

  /** An artist as searched (`name`) and, once resolved, its catalog id and
      the catalog's spelling of its name. */
  datatype Artist = Artist(name: string, spotifyId: Option<string>, foundName: Option<string>)

  /** A track, identified by its catalog URI. */
  datatype Track = Track(uri: string, name: Option<string>, artist: Option<string>)

  /** A playlist to create or update; `tracks` is never filled by the program. */
  datatype Playlist = Playlist(name: string, description: string, spotifyId: Option<string>, tracks: seq<Track>)

  /** `Artist(name=...)` with the remaining fields left at their defaults. */
  function NamedArtist(name: string): (a: Artist)
    ensures a.name == name
    ensures a.spotifyId.None? && a.foundName.None?
  {
    Artist(name, None, None)
  }

  /** `Track(uri=...)` with the remaining fields left at their defaults. */
  function UriTrack(uri: string): (t: Track)
    ensures t.uri == uri
    ensures t.name.None? && t.artist.None?
  {
    Track(uri, None, None)
  }

  /** `Playlist(name=..., description=...)` with the remaining fields left at
      their defaults: no catalog id and an empty track list. */
  function NewPlaylist(name: string, description: string): (p: Playlist)
    ensures p.name == name && p.description == description
    ensures p.spotifyId.None? && p.tracks == []
  {
    Playlist(name, description, None, [])
  }

  /** The URIs of a track list, in order (`[track.uri for track in tracks]`). */
  function Uris(tracks: seq<Track>): (r: seq<string>)
    ensures |r| == |tracks|
    ensures forall k :: 0 <= k < |tracks| ==> r[k] == tracks[k].uri
  {
    seq(|tracks|, k requires 0 <= k < |tracks| => tracks[k].uri)
  }
}

=== FILE: file_loader.dfy ===
/** Loading the artist names: one name per line, blank lines and `#`
    comments ignored. Reading the file is left to the caller: a file is
    either missing or the sequence of its lines. */
module FileLoader {
  import opened Text

  /** The artist file as the loader finds it. */
  datatype ArtistFile = Missing | Present(lines: seq<string>)

  /** The names returned, in this order, when the file is missing. */
  const ExampleArtists: seq<string> := ["Iron Maiden", "Metallica", "Slayer", "Megadeth", "Anthrax"]

  /** A stripped line names an artist when it is neither empty nor a comment. */
  predicate NamesArtist(stripped: string) {
    stripped != "" && !StartsWith(stripped, "#")
  }

  /** `f` applied to every entry, in order. */
  function MapSeq<A, B>(f: A -> B, xs: seq<A>): (r: seq<B>)
    ensures |r| == |xs|
    ensures forall j :: 0 <= j < |xs| ==> r[j] == f(xs[j])
  {
    seq(|xs|, j requires 0 <= j < |xs| => f(xs[j]))
  }

  lemma MapSeqAppend<A, B>(f: A -> B, a: seq<A>, b: seq<A>)
    ensures MapSeq(f, a + b) == MapSeq(f, a) + MapSeq(f, b)
  {
  }

  /** Every line, stripped. */
  function StripAll(lines: seq<string>): (r: seq<string>)
    ensures |r| == |lines|
    ensures forall j :: 0 <= j < |lines| ==> r[j] == Strip(lines[j])
  {
    MapSeq(Strip, lines)
  }

  /** The entries that name an artist, in order. */
  function KeepNames(xs: seq<string>): (r: seq<string>)
    ensures |r| <= |xs|
    ensures forall k :: 0 <= k < |r| ==> NamesArtist(r[k]) && r[k] in xs
  {
    if |xs| == 0 then []
    else
      var rest := KeepNames(xs[1..]);
      if NamesArtist(xs[0]) then [xs[0]] + rest else rest
  }

  /** The stripped lines that name an artist, in file order. */
  function ArtistLines(lines: seq<string>): (r: seq<string>)
    ensures |r| <= |lines|
    ensures forall k :: 0 <= k < |r| ==> r[k] != "" && r[k][0] != '#'
    ensures forall k :: 0 <= k < |r| ==> r[k] in StripAll(lines)
  {
    KeepNames(StripAll(lines))
  }

  /** Every name is already stripped: stripping it again changes nothing. */
  lemma ArtistLinesStripped(lines: seq<string>)
    ensures forall k :: 0 <= k < |ArtistLines(lines)| ==> Strip(ArtistLines(lines)[k]) == ArtistLines(lines)[k]
  {
    var r := ArtistLines(lines);
    forall k | 0 <= k < |r|
      ensures Strip(r[k]) == r[k]
    {
      var j :| 0 <= j < |lines| && StripAll(lines)[j] == r[k];
      StripIdempotent(lines[j]);
    }
  }

  lemma {:induction false} KeepNamesAppend(a: seq<string>, b: seq<string>)
    ensures KeepNames(a + b) == KeepNames(a) + KeepNames(b)
    decreases |a|
  {
    if |a| == 0 {
      assert a + b == b;
    } else {
      assert (a + b)[0] == a[0];
      assert (a + b)[1..] == a[1..] + b;
      KeepNamesAppend(a[1..], b);
    }
  }

  /** The lines of two consecutive parts of a file give the names of the first
      part followed by those of the second: the filter keeps file order and
      decides each line on its own. */
  lemma ArtistLinesAppend(a: seq<string>, b: seq<string>)
    ensures ArtistLines(a + b) == ArtistLines(a) + ArtistLines(b)
  {
    MapSeqAppend(Strip, a, b);
    KeepNamesAppend(StripAll(a), StripAll(b));
  }

  /** One line gives its stripped text when that names an artist, and nothing
      otherwise. */
  lemma ArtistLinesSingle(line: string)
    ensures ArtistLines([line]) == if NamesArtist(Strip(line)) then [Strip(line)] else []
  {
    assert StripAll([line]) == [Strip(line)];
    assert [Strip(line)][1..] == [];
  }

  /** `load_artists`. A missing file gives the five example artists in their
      declared order (writing the example file is not modelled); a present
      file gives its stripped, non-empty, non-comment lines, in order. */
  function LoadArtists(file: ArtistFile): (r: seq<string>)
    ensures file.Missing? ==> r == ["Iron Maiden", "Metallica", "Slayer", "Megadeth", "Anthrax"]
    ensures file.Present? ==> |r| <= |file.lines|
    ensures file.Present? ==> forall k :: 0 <= k < |r| ==> r[k] != "" && r[k][0] != '#'
    ensures file.Present? ==> forall k :: 0 <= k < |r| ==> r[k] in StripAll(file.lines)
  {
    match file
    case Missing => ExampleArtists
    case Present(lines) => ArtistLines(lines)
  }
}

=== FILE: pagination.dfy ===
/** The two paginated reads of the repository: the current user's playlists
    (pages of 50, until `next` is null) and a playlist's items (pages of 100,
    until a page is empty or `next` is null).

    The catalog holds a finite sequence of pages; a page requested past its
    end reads as empty with no further page, so every read ends. */
module Pagination {
  import opened Wrappers
  import opened Catalog

  const PlaylistPageSize: nat := 50
  const ItemPageSize: nat := 100

  /** Which listing is read. */
  datatype Listing = PlaylistListing | ItemListing(playlistId: string)

  /** The call that reads page `k` of a listing. */
  function PageCall(listing: Listing, k: nat): Call {
    match listing
    case PlaylistListing => CurrentUserPlaylists(PlaylistPageSize, PlaylistPageSize * k)
    case ItemListing(pid) => PlaylistItems(pid, ItemPageSize, ItemPageSize * k)
  }

  /** Page `k` as the catalog returns it. */
  function PageAt<T>(pages: seq<Page<T>>, k: nat): Page<T> {
    if k < |pages| then pages[k] else Page([], false)
  }

  /** Whether the reading loop leaves after page `p`: the playlist listing
      only on a null `next`, the item listing also on an empty page. */
  predicate StopsAfter<T>(listing: Listing, p: Page<T>) {
    !p.hasNext || (listing.ItemListing? && |p.items| == 0)
  }

  /** The page, from `k` on, after which the loop leaves. */
  function LastPage<T>(listing: Listing, pages: seq<Page<T>>, k: nat): (e: nat)
    ensures k <= e
    ensures StopsAfter(listing, PageAt(pages, e))
    ensures forall j :: k <= j < e ==> !StopsAfter(listing, PageAt(pages, j))
    decreases |pages| - k
  {
    if StopsAfter(listing, PageAt(pages, k)) then k else LastPage(listing, pages, k + 1)
  }

  /** The items of pages `k` up to `n - 1`, laid end to end. */
  function ItemsBetween<T>(pages: seq<Page<T>>, k: nat, n: nat): seq<T>
    decreases n - k
  {
    if n <= k then [] else PageAt(pages, k).items + ItemsBetween(pages, k + 1, n)
  }

  /** The calls that read pages `k` up to `n - 1`, in order. */
  function CallsBetween(listing: Listing, k: nat, n: nat): (r: seq<Call>)
    ensures |r| == if n <= k then 0 else n - k
    ensures forall i :: 0 <= i < |r| ==> r[i] == PageCall(listing, k + i)
    decreases n - k
  {
    if n <= k then [] else [PageCall(listing, k)] + CallsBetween(listing, k + 1, n)
  }

  /** Page `f` is the first page from `k` on whose read raises. */
  predicate FirstFailure(c: Catalog, listing: Listing, k: nat, f: nat) {
    && k <= f
    && c.Fails(PageCall(listing, f))
    && forall j :: k <= j < f ==> !c.Fails(PageCall(listing, j))
  }

  /** Reads the listing from page `k` on. It either returns every item of
      pages `k` to the last page, having read each of them once and in
      order, or raises at the first page whose read raises, having issued no
      call past it. */
  function ReadPages<T>(c: Catalog, listing: Listing, pages: seq<Page<T>>, k: nat): (r: Traced<Result<seq<T>>>)
    ensures var e := LastPage(listing, pages, k);
      && (r.value.Ok? <==> forall j :: k <= j <= e ==> !c.Fails(PageCall(listing, j)))
      && (r.value.Ok? ==> r.value.value == ItemsBetween(pages, k, e + 1) && r.calls == CallsBetween(listing, k, e + 1))
      && (r.value.Raised? ==> exists f: nat :: FirstFailure(c, listing, k, f) && f <= e && r.calls == CallsBetween(listing, k, f + 1))
    decreases |pages| - k
  {
    var call := PageCall(listing, k);
    var page := PageAt(pages, k);
    if c.Fails(call) then
      assert FirstFailure(c, listing, k, k);
      assert CallsBetween(listing, k, k + 1) == [call];
      Traced(Raised, [call])
    else if StopsAfter(listing, page) then
      Traced(Ok(page.items), [call])
    else
      var rest := ReadPages(c, listing, pages, k + 1);
      match rest.value
      case Raised =>
        var f: nat :| FirstFailure(c, listing, k + 1, f) && f <= LastPage(listing, pages, k + 1)
                 && rest.calls == CallsBetween(listing, k + 1, f + 1);
        assert FirstFailure(c, listing, k, f);
        Traced(Raised, [call] + rest.calls)
      case Ok(items) =>
        Traced(Ok(page.items + items), [call] + rest.calls)
  }

  /** Whatever the outcome, the calls read pages `k`, `k + 1`, ... in order. */
  lemma ReadPagesCalls<T>(c: Catalog, listing: Listing, pages: seq<Page<T>>, k: nat)
    ensures var calls := ReadPages(c, listing, pages, k).calls;
            forall i :: 0 <= i < |calls| ==> calls[i] == PageCall(listing, k + i)
  {
    var r := ReadPages(c, listing, pages, k);
    if r.value.Raised? {
      var f: nat :| FirstFailure(c, listing, k, f) && r.calls == CallsBetween(listing, k, f + 1);
    }
  }
}

=== FILE: playlist_effects.dfy ===
/** What the playlist writes do to a playlist, as a simple state update: its
    description and its items in order. This is not the catalog's full
    behaviour, only the part the program relies on. Removing URIs drops every
    item with one of those URIs; adding URIs appends one item per URI;
    changing the details sets the description. Reads and the creation call
    change no existing playlist. */
module PlaylistEffects {
  import opened Wrappers
  import opened Catalog
  import opened Batching
  import opened Pagination
  import opened SpotifyRepository
  import Entities

  /** A playlist's description and items. An item is its track's URI, or
      `None` when the catalog reports the item's track as null. */
  datatype Contents = Contents(description: string, items: seq<Option<string>>)

  /** Whether removing `uris` removes `item`. */
  predicate RemovedBy(item: Option<string>, uris: seq<string>) {
    item.Some? && item.value in uris
  }

  /** The items left once every occurrence of the given URIs is removed, in
      their original order. */
  function Without(items: seq<Option<string>>, uris: seq<string>): (r: seq<Option<string>>)
    ensures |r| <= |items|
    ensures forall x :: x in r <==> x in items && !RemovedBy(x, uris)
    decreases |items|
  {
    if |items| == 0 then []
    else
      var rest := Without(items[1..], uris);
      assert forall x :: x in items <==> x == items[0] || x in items[1..];
      if RemovedBy(items[0], uris) then rest else [items[0]] + rest
  }

  /** Removal decides each item alone and keeps the items' order. */
  lemma {:induction false} WithoutAppend(a: seq<Option<string>>, b: seq<Option<string>>, uris: seq<string>)
    ensures Without(a + b, uris) == Without(a, uris) + Without(b, uris)
    decreases |a|
  {
    if a == [] {
      assert a + b == b;
    } else {
      assert (a + b)[0] == a[0];
      assert (a + b)[1..] == a[1..] + b;
      WithoutAppend(a[1..], b, uris);
    }
  }

  /** The items whose track is null, in order. */
  function Nulls(items: seq<Option<string>>): (r: seq<Option<string>>)
    ensures |r| <= |items|
    ensures forall k :: 0 <= k < |r| ==> r[k] == None
    ensures |r| + |TrackUris(items)| == |items|
    decreases |items|
  {
    if |items| == 0 then []
    else if items[0].None? then [None] + Nulls(items[1..])
    else Nulls(items[1..])
  }

  /** One item per URI, in order. */
  function AsItems(uris: seq<string>): (r: seq<Option<string>>)
    ensures |r| == |uris|
    ensures forall k :: 0 <= k < |uris| ==> r[k] == Some(uris[k])
  {
    seq(|uris|, k requires 0 <= k < |uris| => Some(uris[k]))
  }

  /** The playlist a call changes, if it changes one. Creating a playlist
      changes none that exists. */
  function Changes(call: Call): Option<string> {
    match call
    case RemoveAllOccurrences(pid, _) => Some(pid)
    case AddItems(pid, _) => Some(pid)
    case PlaylistChangeDetails(pid, _) => Some(pid)
    case _ => None
  }

  /** Whether `call` changes the playlist `playlistId`. */
  predicate Touches(call: Call, playlistId: string) {
    Changes(call) == Some(playlistId)
  }

  /** No call changes a playlist other than `playlistId`. */
  predicate ChangesAtMost(calls: seq<Call>, playlistId: string) {
    forall k :: 0 <= k < |calls| ==> Changes(calls[k]) == None || Changes(calls[k]) == Some(playlistId)
  }

  /** The playlist `playlistId` after one call. */
  function Apply(playlistId: string, s: Contents, call: Call): (r: Contents)
    ensures !Touches(call, playlistId) ==> r == s
  {
    match call
    case RemoveAllOccurrences(pid, uris) =>
      if pid == playlistId then Contents(s.description, Without(s.items, uris)) else s
    case AddItems(pid, uris) =>
      if pid == playlistId then Contents(s.description, s.items + AsItems(uris)) else s
    case PlaylistChangeDetails(pid, description) =>
      if pid == playlistId then Contents(description, s.items) else s
    case _ => s
  }

  /** The playlist `playlistId` after the calls, in order. */
  function ApplyAll(playlistId: string, s: Contents, calls: seq<Call>): Contents
    decreases |calls|
  {
    if |calls| == 0 then s else ApplyAll(playlistId, Apply(playlistId, s, calls[0]), calls[1..])
  }

  /** The playlist after its items are replaced by `uris` the way the program
      does it: the items with a null track stay, the new tracks follow, and
      the description is the new one. */
  function Replaced(s: Contents, description: string, uris: seq<string>): Contents {
    Contents(description, Nulls(s.items) + AsItems(uris))
  }

  /* ---------------------------------------------------------------------
     Removal
     --------------------------------------------------------------------- */

  lemma WithoutNothing(items: seq<Option<string>>)
    ensures Without(items, []) == items
  {
    if |items| > 0 {
      WithoutNothing(items[1..]);
      assert items == [items[0]] + items[1..];
    }
  }

  /** Removing one list of URIs and then another is removing both at once. */
  lemma {:induction false} WithoutTwice(items: seq<Option<string>>, a: seq<string>, b: seq<string>)
    ensures Without(Without(items, a), b) == Without(items, a + b)
    decreases |items|
  {
    if |items| > 0 {
      WithoutTwice(items[1..], a, b);
      assert RemovedBy(items[0], a + b) <==> RemovedBy(items[0], a) || RemovedBy(items[0], b);
      if !RemovedBy(items[0], a) {
        var once := Without(items, a);
        assert once == [items[0]] + Without(items[1..], a);
        assert once[0] == items[0] && once[1..] == Without(items[1..], a);
      }
    }
  }

  /** Removing URIs that cover every non-null item leaves exactly the items
      whose track is null. */
  lemma {:induction false} WithoutCovering(items: seq<Option<string>>, uris: seq<string>)
    requires forall k :: 0 <= k < |items| && items[k].Some? ==> items[k].value in uris
    ensures Without(items, uris) == Nulls(items)
    decreases |items|
  {
    if |items| > 0 {
      assert forall k :: 1 <= k < |items| ==> items[1..][k - 1] == items[k];
      WithoutCovering(items[1..], uris);
    }
  }

  /** The collected URIs cover every item with a track. */
  lemma {:induction false} TrackUrisCover(items: seq<Option<string>>)
    ensures forall k :: 0 <= k < |items| && items[k].Some? ==> items[k].value in TrackUris(items)
    decreases |items|
  {
    if |items| > 0 {
      TrackUrisCover(items[1..]);
      assert forall k :: 1 <= k < |items| ==> items[1..][k - 1] == items[k];
    }
  }

  lemma {:induction false} NullsOfNulls(items: seq<Option<string>>)
    requires forall k :: 0 <= k < |items| ==> items[k].None?
    ensures Nulls(items) == items
    decreases |items|
  {
    if |items| > 0 {
      NullsOfNulls(items[1..]);
      assert items == [items[0]] + items[1..];
    }
  }

  lemma {:induction false} NullsAppend(a: seq<Option<string>>, b: seq<Option<string>>)
    ensures Nulls(a + b) == Nulls(a) + Nulls(b)
    decreases |a|
  {
    if |a| == 0 {
      assert a + b == b;
    } else {
      assert (a + b)[0] == a[0];
      assert (a + b)[1..] == a[1..] + b;
      NullsAppend(a[1..], b);
    }
  }

  lemma {:induction false} NullsOfItems(uris: seq<string>)
    ensures Nulls(AsItems(uris)) == []
    decreases |uris|
  {
    if |uris| > 0 {
      assert AsItems(uris)[1..] == AsItems(uris[1..]);
      NullsOfItems(uris[1..]);
    }
  }

  lemma AsItemsAppend(a: seq<string>, b: seq<string>)
    ensures AsItems(a + b) == AsItems(a) + AsItems(b)
  {
  }

  /** Replacing twice with the same tracks and description is replacing
      once: a second run of the synchronisation finds the playlist as the
      first left it and leaves it so. */
  lemma ReplaceIdempotent(s: Contents, description: string, uris: seq<string>)
    ensures Replaced(Replaced(s, description, uris), description, uris) == Replaced(s, description, uris)
  {
    var nulls := Nulls(s.items);
    NullsAppend(nulls, AsItems(uris));
    NullsOfItems(uris);
    NullsOfNulls(nulls);
    assert nulls + [] == nulls;
  }

  /* ---------------------------------------------------------------------
     Sequences of calls
     --------------------------------------------------------------------- */

  /** Applying two consecutive lists of calls is applying the first, then
      the second. */
  lemma {:induction false} ApplyAllAppend(playlistId: string, s: Contents, a: seq<Call>, b: seq<Call>)
    ensures ApplyAll(playlistId, s, a + b) == ApplyAll(playlistId, ApplyAll(playlistId, s, a), b)
    decreases |a|
  {
    if |a| == 0 {
      assert a + b == b;
    } else {
      assert (a + b)[0] == a[0];
      assert (a + b)[1..] == a[1..] + b;
      ApplyAllAppend(playlistId, Apply(playlistId, s, a[0]), a[1..], b);
    }
  }

  /** Calls none of which touches the playlist leave it as it was. */
  lemma {:induction false} ApplyAllUntouched(playlistId: string, s: Contents, calls: seq<Call>)
    requires forall k :: 0 <= k < |calls| ==> !Touches(calls[k], playlistId)
    ensures ApplyAll(playlistId, s, calls) == s
    decreases |calls|
  {
    if |calls| > 0 {
      assert !Touches(calls[0], playlistId);
      assert forall k :: 1 <= k < |calls| ==> calls[1..][k - 1] == calls[k];
      ApplyAllUntouched(playlistId, s, calls[1..]);
    }
  }

  lemma ChangesAtMostAppend(a: seq<Call>, b: seq<Call>, playlistId: string)
    ensures ChangesAtMost(a, playlistId) && ChangesAtMost(b, playlistId) ==> ChangesAtMost(a + b, playlistId)
  {
    assert forall k :: |a| <= k < |a + b| ==> (a + b)[k] == b[k - |a|];
  }

  /** Calls that change at most `playlistId` leave every other playlist as
      it was. */
  lemma OthersUnchanged(playlistId: string, calls: seq<Call>, other: string, s: Contents)
    requires ChangesAtMost(calls, playlistId)
    requires other != playlistId
    ensures ApplyAll(other, s, calls) == s
  {
    ApplyAllUntouched(other, s, calls);
  }

  /** Removal batches sent to a playlist remove, together, the URIs of all
      the batches. */
  lemma {:induction false} RemovalBatches(playlistId: string, s: Contents, batches: seq<seq<string>>)
    ensures ApplyAll(playlistId, s, BatchCalls(RemoveOp, playlistId, batches))
            == Contents(s.description, Without(s.items, Flatten(batches)))
    decreases |batches|
  {
    var calls := BatchCalls(RemoveOp, playlistId, batches);
    if |batches| == 0 {
      WithoutNothing(s.items);
    } else {
      assert calls[1..] == BatchCalls(RemoveOp, playlistId, batches[1..]);
      var next := Apply(playlistId, s, calls[0]);
      assert next == Contents(s.description, Without(s.items, batches[0]));
      RemovalBatches(playlistId, next, batches[1..]);
      WithoutTwice(s.items, batches[0], Flatten(batches[1..]));
    }
  }

  /** Addition batches sent to a playlist append one item per URI of all the
      batches, in order. */
  lemma {:induction false} AdditionBatches(playlistId: string, s: Contents, batches: seq<seq<string>>)
    ensures ApplyAll(playlistId, s, BatchCalls(AddOp, playlistId, batches))
            == Contents(s.description, s.items + AsItems(Flatten(batches)))
    decreases |batches|
  {
    var calls := BatchCalls(AddOp, playlistId, batches);
    if |batches| == 0 {
      assert s.items + AsItems([]) == s.items;
    } else {
      assert calls[1..] == BatchCalls(AddOp, playlistId, batches[1..]);
      var next := Apply(playlistId, s, calls[0]);
      assert next == Contents(s.description, s.items + AsItems(batches[0]));
      AdditionBatches(playlistId, next, batches[1..]);
      AsItemsAppend(batches[0], Flatten(batches[1..]));
      ConcatAssociative(s.items, AsItems(batches[0]), AsItems(Flatten(batches[1..])));
    }
  }

  /** Reading a listing changes no playlist. */
  lemma ReadsTouchNothing(playlistId: string, listing: Listing, k: nat, n: nat)
    ensures forall j :: 0 <= j < |CallsBetween(listing, k, n)| ==> !Touches(CallsBetween(listing, k, n)[j], playlistId)
  {
  }

  /* ---------------------------------------------------------------------
     The repository's writes
     --------------------------------------------------------------------- */

  /** `clear_playlist`, when it does not raise, leaves exactly the items
      whose track is null, provided the pages it reads list the playlist's
      items; the description is kept. */
  lemma ClearPlaylistEffect(c: Catalog, playlistId: string, before: Contents)
    requires before.items == ListedItems(c, playlistId)
    ensures ClearPlaylist(c, playlistId).value.Ok? ==>
              ApplyAll(playlistId, before, ClearPlaylist(c, playlistId).calls)
              == Contents(before.description, Nulls(before.items))
  {
    var r := ClearPlaylist(c, playlistId);
    if r.value.Ok? {
      var readCalls := ItemReadCalls(c, playlistId);
      ReadsTouchNothing(playlistId, ItemListing(playlistId), 0, ItemsEnd(c, playlistId));
      ApplyAllUntouched(playlistId, before, readCalls);
      var uris := TrackUris(before.items);
      if uris == [] {
        assert r.calls == readCalls;
        NullsOfNulls(before.items);
      } else {
        assert ItemReadsSucceed(c, playlistId);
        var removals := BatchCalls(RemoveOp, playlistId, Batches(uris));
        assert r.calls == readCalls + removals;
        ApplyAllAppend(playlistId, before, readCalls, removals);
        RemovalBatches(playlistId, before, Batches(uris));
        TrackUrisCover(before.items);
        WithoutCovering(before.items, uris);
      }
    }
  }

  /** Clearing, updating and adding change only the playlist they are given,
      whether or not they raise. */
  lemma ClearChangesOnlyItsPlaylist(c: Catalog, playlistId: string)
    ensures ChangesAtMost(ClearPlaylist(c, playlistId).calls, playlistId)
  {
    ClearPlaylistCallsOnly(c, playlistId);
  }

  lemma UpdateChangesOnlyItsPlaylist(c: Catalog, playlistId: string, playlist: Entities.Playlist)
    ensures ChangesAtMost(UpdatePlaylist(c, playlistId, playlist).calls, playlistId)
  {
  }

  lemma AddChangesOnlyItsPlaylist(c: Catalog, playlistId: string, tracks: seq<Entities.Track>)
    ensures ChangesAtMost(AddTracksToPlaylist(c, playlistId, tracks).calls, playlistId)
  {
  }

  /** `update_playlist`, when it does not raise, sets the description and
      keeps the items. */
  lemma UpdatePlaylistEffect(c: Catalog, playlistId: string, playlist: Entities.Playlist, before: Contents)
    ensures UpdatePlaylist(c, playlistId, playlist).value.Ok? ==>
              ApplyAll(playlistId, before, UpdatePlaylist(c, playlistId, playlist).calls)
              == Contents(playlist.description, before.items)
  {
  }

  /** `add_tracks_to_playlist`, when it does not raise, appends the tracks'
      URIs in order and keeps everything else. */
  lemma AddTracksEffect(c: Catalog, playlistId: string, tracks: seq<Entities.Track>, before: Contents)
    ensures AddTracksToPlaylist(c, playlistId, tracks).value.Ok? ==>
              ApplyAll(playlistId, before, AddTracksToPlaylist(c, playlistId, tracks).calls)
              == Contents(before.description, before.items + AsItems(Entities.Uris(tracks)))
  {
    if AddTracksToPlaylist(c, playlistId, tracks).value.Ok? {
      AdditionBatches(playlistId, before, Batches(Entities.Uris(tracks)));
    }
  }
}

=== FILE: spotify_repository.dfy ===
/** The repository over the catalog: artist resolution, top tracks, playlist
    lookup by name, creation, description update, clearing and batched
    addition. The connection and its authentication are not part of the
    model: the catalog is already connected. */
module SpotifyRepository {
  import opened Wrappers
  import opened Text
  import opened Entities
  import opened Catalog
  import opened Pagination
  import opened Batching

  /** How many artists one search asks for. */
  const SearchLimit: nat := 5

  /* ---------------------------------------------------------------------
     Artist resolution
     --------------------------------------------------------------------- */

  const ArtistField: string := "artist:"

  /** The queries tried, in order: scoped to the artist field, then bare. */
  function SearchQueries(clean: string): (r: seq<string>)
    ensures |r| == 2
    ensures StartsWith(r[0], ArtistField) && r[0][|ArtistField|..] == clean
    ensures r[1] == clean
  {
    [ArtistField + clean, clean]
  }

  /** A query settles the search when its call does not raise and returns at
      least one artist. */
  predicate Answers(c: Catalog, query: string) {
    !c.Fails(Search(query, SearchLimit)) && |c.SearchReply(query)| > 0
  }

  /** Hit `k` is the first, from `i` on, whose name equals `target` ignoring case. */
  predicate FirstExactAt(hits: seq<ArtistHit>, target: string, i: nat, k: nat) {
    && i <= k < |hits|
    && SameNameIgnoringCase(hits[k].name, target)
    && forall j :: i <= j < k ==> !SameNameIgnoringCase(hits[j].name, target)
  }

  /** The scan for an exact (case-insensitive) name match, from position `i`. */
  function ExactMatchFrom(hits: seq<ArtistHit>, target: string, i: nat): (r: Option<nat>)
    ensures r.Some? ==> FirstExactAt(hits, target, i, r.value)
    ensures r.None? ==> forall j :: i <= j < |hits| ==> !SameNameIgnoringCase(hits[j].name, target)
    decreases |hits| - i
  {
    if i >= |hits| then None
    else if SameNameIgnoringCase(hits[i].name, target) then Some(i)
    else ExactMatchFrom(hits, target, i + 1)
  }

  /** The artist picked among the results of a query: the first whose name
      equals the target ignoring case, and the first result when none does
      (even if a later one is closer). */
  function Choose(hits: seq<ArtistHit>, target: string): (h: ArtistHit)
    requires |hits| > 0
    ensures forall k: nat :: FirstExactAt(hits, target, 0, k) ==> h == hits[k]
    ensures (forall k :: 0 <= k < |hits| ==> !SameNameIgnoringCase(hits[k].name, target)) ==> h == hits[0]
  {
    match ExactMatchFrom(hits, target, 0)
    case Some(k) => hits[k]
    case None => hits[0]
  }

  /** The artist built from the chosen result. */
  function Resolved(clean: string, h: ArtistHit): Artist {
    Artist(clean, Some(h.id), Some(h.name))
  }

  /** Tries the queries in order; a query that raises or returns nothing
      passes to the next one. */
  function TryQueries(c: Catalog, clean: string, queries: seq<string>): (r: Traced<Option<Artist>>)
    ensures |r.calls| <= |queries| && (|queries| > 0 ==> |r.calls| > 0)
    ensures forall k :: 0 <= k < |r.calls| ==> r.calls[k].Search?
    ensures r.value.Some? ==> r.value.value.name == clean && r.value.value.spotifyId.Some?
    decreases |queries|
  {
    if |queries| == 0 then Traced(None, [])
    else
      var call := Search(queries[0], SearchLimit);
      if Answers(c, queries[0]) then
        Traced(Some(Resolved(clean, Choose(c.SearchReply(queries[0]), clean))), [call])
      else
        var rest := TryQueries(c, clean, queries[1..]);
        Traced(rest.value, [call] + rest.calls)
  }

  /** `find_artist`: one or two searches, and an artist named after the
      stripped input and carrying a catalog id, or none. */
  function FindArtist(c: Catalog, artistName: string): (r: Traced<Option<Artist>>)
    ensures 0 < |r.calls| <= 2
    ensures forall k :: 0 <= k < |r.calls| ==> r.calls[k].Search?
    ensures r.value.Some? ==> r.value.value.name == Strip(artistName) && r.value.value.spotifyId.Some?
  {
    var clean := Strip(artistName);
    TryQueries(c, clean, SearchQueries(clean))
  }

  /** How `find_artist` decides. The name is stripped; the scoped query is
      tried first and, when it settles the search, the bare query is never
      issued. The first query that settles the search decides the artist,
      whose name is the stripped input and whose id and found name are those
      of the chosen result. When neither query settles it (both raise or
      return nothing), there is no artist. */
  lemma FindArtistQueriesInOrder(c: Catalog, artistName: string)
    ensures var r := FindArtist(c, artistName);
            var clean := Strip(artistName);
            var scoped := ArtistField + clean;
            if Answers(c, scoped) then
              r == Traced(Some(Resolved(clean, Choose(c.SearchReply(scoped), clean))), [Search(scoped, SearchLimit)])
            else if Answers(c, clean) then
              r == Traced(Some(Resolved(clean, Choose(c.SearchReply(clean), clean))),
                          [Search(scoped, SearchLimit), Search(clean, SearchLimit)])
            else
              r == Traced(None, [Search(scoped, SearchLimit), Search(clean, SearchLimit)])
  {
    var clean := Strip(artistName);
    var queries := SearchQueries(clean);
    assert FindArtist(c, artistName) == TryQueries(c, clean, queries);
    TryQueriesFirst(c, clean, queries);
    assert queries[1..] == [clean];
    TryQueriesFirst(c, clean, [clean]);
    assert [clean][1..] == [];
  }

  /** One step of `TryQueries`. */
  lemma TryQueriesFirst(c: Catalog, clean: string, queries: seq<string>)
    requires |queries| > 0
    ensures var call := Search(queries[0], SearchLimit);
            TryQueries(c, clean, queries)
            == if Answers(c, queries[0]) then Traced(Some(Resolved(clean, Choose(c.SearchReply(queries[0]), clean))), [call])
               else Traced(TryQueries(c, clean, queries[1..]).value, [call] + TryQueries(c, clean, queries[1..]).calls)
  {
  }

  /* ---------------------------------------------------------------------
     Top tracks
     --------------------------------------------------------------------- */

  /** Python's slice `s[:n]`: a negative `n` counts from the end. */
  function SlicePrefix<T>(s: seq<T>, n: int): (r: seq<T>)
    ensures r <= s
    ensures n >= 0 ==> |r| == Min(n, |s|)
    ensures n < 0 ==> |r| == Max(0, |s| + n)
  {
    if n >= 0 then s[..Min(n, |s|)] else s[..Max(0, |s| + n)]
  }

  /** The track built from a catalog entry: its URI, its title, and the name
      of its first artist when it has one. */
  function ToTrack(h: TrackHit): (t: Track)
    ensures t.uri == h.uri && t.name == Some(h.name)
    ensures |h.artistNames| > 0 ==> t.artist == Some(h.artistNames[0])
    ensures |h.artistNames| == 0 ==> t.artist == None
  {
    Track(h.uri, Some(h.name), if |h.artistNames| > 0 then Some(h.artistNames[0]) else None)
  }

  function ToTracks(hits: seq<TrackHit>): (r: seq<Track>)
    ensures |r| == |hits|
    ensures forall k :: 0 <= k < |hits| ==> r[k] == ToTrack(hits[k])
  {
    seq(|hits|, k requires 0 <= k < |hits| => ToTrack(hits[k]))
  }

  /** Python truthiness of `artist.spotify_id`: absent and empty are both false. */
  predicate HasCatalogId(a: Artist) {
    a.spotifyId.Some? && a.spotifyId.value != ""
  }

  /** `get_artist_top_tracks`. Without a catalog id nothing is asked and
      nothing returned. Otherwise one call is issued; if it raises, nothing is
      returned; if not, the result is the first `maxTracks` catalog entries
      (Python slice semantics), in catalog order. */
  function GetArtistTopTracks(c: Catalog, artist: Artist, maxTracks: int): (r: Traced<seq<Track>>)
    ensures !HasCatalogId(artist) ==> r == Traced([], [])
    ensures HasCatalogId(artist) ==> r.calls == [ArtistTopTracks(artist.spotifyId.value)]
    ensures HasCatalogId(artist) && c.Fails(ArtistTopTracks(artist.spotifyId.value)) ==> r.value == []
    ensures HasCatalogId(artist) && !c.Fails(ArtistTopTracks(artist.spotifyId.value)) ==>
              var hits := c.TopTracksOf(artist.spotifyId.value);
              && |r.value| <= |hits|
              && (maxTracks >= 0 ==> |r.value| == Min(maxTracks, |hits|))
              && (maxTracks < 0 ==> |r.value| == Max(0, |hits| + maxTracks))
              && forall k :: 0 <= k < |r.value| ==> r.value[k] == ToTrack(hits[k])
  {
    if !HasCatalogId(artist) then Traced([], [])
    else
      var call := ArtistTopTracks(artist.spotifyId.value);
      if c.Fails(call) then Traced([], [call])
      else
        var hits := c.TopTracksOf(artist.spotifyId.value);
        if |hits| == 0 then Traced([], [call])
        else Traced(ToTracks(SlicePrefix(hits, maxTracks)), [call])
  }

  /* ---------------------------------------------------------------------
     Playlist lookup by name
     --------------------------------------------------------------------- */

  /** Playlist `k` is the first, from `i` on, named exactly `name`. */
  predicate FirstNamedAt(playlists: seq<PlaylistHit>, name: string, i: nat, k: nat) {
    && i <= k < |playlists|
    && playlists[k].name == name
    && forall j :: i <= j < k ==> playlists[j].name != name
  }

  function FirstNamedFrom(playlists: seq<PlaylistHit>, name: string, i: nat): (r: Option<string>)
    ensures r.Some? ==> exists k: nat :: FirstNamedAt(playlists, name, i, k) && playlists[k].id == r.value
    ensures r.None? ==> forall j :: i <= j < |playlists| ==> playlists[j].name != name
    decreases |playlists| - i
  {
    if i >= |playlists| then None
    else if playlists[i].name == name then
      assert FirstNamedAt(playlists, name, i, i);
      Some(playlists[i].id)
    else
      var r := FirstNamedFrom(playlists, name, i + 1);
      if r.Some? then
        var k: nat :| FirstNamedAt(playlists, name, i + 1, k) && playlists[k].id == r.value;
        assert FirstNamedAt(playlists, name, i, k);
        r
      else r
  }

  /** `find_playlist_by_name`. Every page of the user's playlists is read, in
      order, until one without `next`; a raising read raises, and no page
      after it is read. The result is the id of the first playlist, in
      listing order, whose name equals `playlistName` exactly (case counts),
      and `None` when there is none. */
  function FindPlaylistByName(c: Catalog, playlistName: string): (r: Traced<Result<Option<string>>>)
    ensures var n := LastPage(PlaylistListing, c.playlistPages, 0) + 1;
            var all := ItemsBetween(c.playlistPages, 0, n);
            && (r.value.Ok? <==> forall j :: 0 <= j < n ==> !c.Fails(PageCall(PlaylistListing, j)))
            && (r.value.Ok? ==> r.calls == CallsBetween(PlaylistListing, 0, n))
            && (r.value.Raised? ==> exists f: nat :: FirstFailure(c, PlaylistListing, 0, f) && f < n
                                                  && r.calls == CallsBetween(PlaylistListing, 0, f + 1))
            && (r.value.Ok? && r.value.value.Some? ==>
                  exists k: nat :: FirstNamedAt(all, playlistName, 0, k) && all[k].id == r.value.value.value)
            && (r.value == Ok(None) ==> forall k :: 0 <= k < |all| ==> all[k].name != playlistName)
  {
    var listed := ReadPages(c, PlaylistListing, c.playlistPages, 0);
    match listed.value
    case Raised => Traced(Raised, listed.calls)
    case Ok(playlists) =>
      var found := FirstNamedFrom(playlists, playlistName, 0);
      assert playlists == ItemsBetween(c.playlistPages, 0, LastPage(PlaylistListing, c.playlistPages, 0) + 1);
      if found.Some? then
        var k: nat :| FirstNamedAt(playlists, playlistName, 0, k) && playlists[k].id == found.value;
        Traced(Ok(found), listed.calls)
      else Traced(Ok(found), listed.calls)
  }

  /* ---------------------------------------------------------------------
     Create and update
     --------------------------------------------------------------------- */

  /** `create_playlist`: asks for the current user, then creates a public
      playlist with the given name and description for that user; the result
      is the id the catalog hands out. */
  function CreatePlaylist(c: Catalog, playlist: Playlist): (r: Traced<Result<string>>)
    ensures var create := UserPlaylistCreate(c.userId, playlist.name, playlist.description, true);
            && (r.value.Ok? <==> !c.Fails(CurrentUser) && !c.Fails(create))
            && (r.value.Ok? ==> r.value.value == c.createdId)
            && r.calls == if c.Fails(CurrentUser) then [CurrentUser] else [CurrentUser, create]
  {
    if c.Fails(CurrentUser) then Traced(Raised, [CurrentUser])
    else
      var create := UserPlaylistCreate(c.userId, playlist.name, playlist.description, true);
      if c.Fails(create) then Traced(Raised, [CurrentUser, create])
      else Traced(Ok(c.createdId), [CurrentUser, create])
  }

  /** `update_playlist`: changes the description only, never the name. */
  function UpdatePlaylist(c: Catalog, playlistId: string, playlist: Playlist): (r: Traced<Result<()>>)
    ensures r.calls == [PlaylistChangeDetails(playlistId, playlist.description)]
    ensures r.value.Ok? <==> !c.Fails(PlaylistChangeDetails(playlistId, playlist.description))
  {
    var call := PlaylistChangeDetails(playlistId, playlist.description);
    if c.Fails(call) then Traced(Raised, [call]) else Traced(Ok(()), [call])
  }

  /* ---------------------------------------------------------------------
     Batched removal and addition
     --------------------------------------------------------------------- */

  datatype BatchOp = RemoveOp | AddOp

  /** The call that sends one batch of URIs. */
  function BatchCall(op: BatchOp, playlistId: string, batch: seq<string>): Call {
    match op
    case RemoveOp => RemoveAllOccurrences(playlistId, batch)
    case AddOp => AddItems(playlistId, batch)
  }

  /** Whether `call` is a batch call of kind `op` to `playlistId`. */
  predicate SendsTo(call: Call, op: BatchOp, playlistId: string) {
    call == BatchCall(op, playlistId, Payload(call))
  }

  function BatchCalls(op: BatchOp, playlistId: string, batches: seq<seq<string>>): (r: seq<Call>)
    ensures |r| == |batches|
    ensures forall k :: 0 <= k < |batches| ==> r[k] == BatchCall(op, playlistId, batches[k])
  {
    seq(|batches|, k requires 0 <= k < |batches| => BatchCall(op, playlistId, batches[k]))
  }

  /** The URIs a call carries (none for a call that is not a batch). */
  function Payload(call: Call): seq<string> {
    match call
    case RemoveAllOccurrences(_, uris) => uris
    case AddItems(_, uris) => uris
    case _ => []
  }

  function Payloads(calls: seq<Call>): (r: seq<seq<string>>)
    ensures |r| == |calls|
    ensures forall k :: 0 <= k < |calls| ==> r[k] == Payload(calls[k])
  {
    seq(|calls|, k requires 0 <= k < |calls| => Payload(calls[k]))
  }

  /** `calls` send `uris` to `playlistId` the way the repository batches
      them: ceil(|uris| / 100) calls of the given kind, each carrying between
      1 and 100 URIs, whose payloads laid end to end in call order are `uris`. */
  ghost predicate BatchedAs(calls: seq<Call>, op: BatchOp, playlistId: string, uris: seq<string>) {
    && |calls| == CeilDiv(|uris|, BatchSize)
    && (forall k :: 0 <= k < |calls| ==> calls[k] == BatchCall(op, playlistId, Payload(calls[k])))
    && (forall k :: 0 <= k < |calls| ==> 0 < |Payload(calls[k])| <= BatchSize)
    && Flatten(Payloads(calls)) == uris
  }

  /** Sending the batches of a list issues exactly the batched calls. */
  lemma BatchCallsAreBatched(op: BatchOp, playlistId: string, uris: seq<string>)
    ensures BatchedAs(BatchCalls(op, playlistId, Batches(uris)), op, playlistId, uris)
  {
    var bs := Batches(uris);
    var calls := BatchCalls(op, playlistId, bs);
    assert forall k :: 0 <= k < |calls| ==> Payload(calls[k]) == bs[k];
    assert Payloads(calls) == bs;
  }

  /** Batch `f` is the first whose call raises. */
  predicate FirstBatchFailure(c: Catalog, op: BatchOp, playlistId: string, batches: seq<seq<string>>, f: nat) {
    && f < |batches|
    && c.Fails(BatchCall(op, playlistId, batches[f]))
    && forall j :: 0 <= j < f ==> !c.Fails(BatchCall(op, playlistId, batches[j]))
  }

  /** Sends the batches one call each, in order; the first call that raises
      ends the sequence (the batches already sent stay sent). */
  function SendBatches(c: Catalog, op: BatchOp, playlistId: string, batches: seq<seq<string>>): (r: Traced<Result<()>>)
    ensures r.value.Ok? <==> forall k :: 0 <= k < |batches| ==> !c.Fails(BatchCall(op, playlistId, batches[k]))
    ensures r.value.Ok? ==> r.calls == BatchCalls(op, playlistId, batches)
    ensures r.value.Raised? ==> exists f: nat :: FirstBatchFailure(c, op, playlistId, batches, f)
                                               && r.calls == BatchCalls(op, playlistId, batches[..f + 1])
    decreases |batches|
  {
    if |batches| == 0 then Traced(Ok(()), [])
    else
      var call := BatchCall(op, playlistId, batches[0]);
      if c.Fails(call) then
        assert FirstBatchFailure(c, op, playlistId, batches, 0);
        assert BatchCalls(op, playlistId, batches[..1]) == [call];
        Traced(Raised, [call])
      else
        var rest := SendBatches(c, op, playlistId, batches[1..]);
        if rest.value.Raised? then
          var f: nat :| FirstBatchFailure(c, op, playlistId, batches[1..], f)
                        && rest.calls == BatchCalls(op, playlistId, batches[1..][..f + 1]);
          assert FirstBatchFailure(c, op, playlistId, batches, f + 1);
          BatchCallsCons(op, playlistId, batches, f + 2);
          Traced(Raised, [call] + rest.calls)
        else
          BatchCallsCons(op, playlistId, batches, |batches|);
          assert batches[..|batches|] == batches;
          Traced(Ok(()), [call] + rest.calls)
  }

  /** The calls for the first `n` batches are the call for the first batch
      followed by those for the next `n - 1`. */
  lemma BatchCallsCons(op: BatchOp, playlistId: string, batches: seq<seq<string>>, n: nat)
    requires 0 < n <= |batches|
    ensures BatchCalls(op, playlistId, batches[..n])
            == [BatchCall(op, playlistId, batches[0])] + BatchCalls(op, playlistId, batches[1..][..n - 1])
  {
    var lhs := BatchCalls(op, playlistId, batches[..n]);
    var rhs := [BatchCall(op, playlistId, batches[0])] + BatchCalls(op, playlistId, batches[1..][..n - 1]);
    assert forall k :: 1 <= k < n ==> batches[1..][..n - 1][k - 1] == batches[..n][k];
    assert |lhs| == |rhs|;
    assert forall k :: 0 <= k < n ==> lhs[k] == rhs[k];
  }

  /** Every call sending batches is a batch call of that kind to that
      playlist, whether or not one raises. */
  lemma SendBatchesSendTo(c: Catalog, op: BatchOp, playlistId: string, batches: seq<seq<string>>)
    ensures var calls := SendBatches(c, op, playlistId, batches).calls;
            forall k :: 0 <= k < |calls| ==> SendsTo(calls[k], op, playlistId)
  {
    var r := SendBatches(c, op, playlistId, batches);
    if r.value.Raised? {
      var f: nat :| FirstBatchFailure(c, op, playlistId, batches, f)
                    && r.calls == BatchCalls(op, playlistId, batches[..f + 1]);
    }
  }

  /** `[item['track']['uri'] for item in items if item['track']]`: the URIs of
      the items whose track is not null, in order. */
  function TrackUris(items: seq<Option<string>>): (r: seq<string>)
    ensures |r| <= |items|
    ensures forall k :: 0 <= k < |r| ==> Some(r[k]) in items
    ensures (forall k :: 0 <= k < |items| ==> items[k].None?) <==> r == []
  {
    if |items| == 0 then []
    else
      var rest := TrackUris(items[1..]);
      assert forall k :: 0 <= k < |rest| ==> Some(rest[k]) in items[1..];
      match items[0]
      case None => rest
      case Some(uri) => [uri] + rest
  }

  /** The collection decides each item alone and keeps the items' order. */
  lemma {:induction false} TrackUrisAppend(a: seq<Option<string>>, b: seq<Option<string>>)
    ensures TrackUris(a + b) == TrackUris(a) + TrackUris(b)
  {
    if a == [] {
      assert a + b == b;
    } else {
      assert (a + b)[0] == a[0];
      assert (a + b)[1..] == a[1..] + b;
      TrackUrisAppend(a[1..], b);
    }
  }

  /** One item contributes its URI when its track is not null, and nothing otherwise. */
  lemma TrackUrisSingle(x: Option<string>)
    ensures TrackUris([x]) == if x.Some? then [x.value] else []
  {
    assert [x][1..] == [];
  }

  /** The removal of the collected URIs, in batches. */
  function RemoveCollected(c: Catalog, playlistId: string, uris: seq<string>): (r: Traced<Result<()>>)
    ensures r.value.Ok? <==> forall k :: 0 <= k < |Batches(uris)| ==> !c.Fails(RemoveAllOccurrences(playlistId, Batches(uris)[k]))
    ensures r.value.Ok? ==> r.calls == BatchCalls(RemoveOp, playlistId, Batches(uris)) && BatchedAs(r.calls, RemoveOp, playlistId, uris)
    ensures r.value.Raised? ==> exists f: nat :: FirstBatchFailure(c, RemoveOp, playlistId, Batches(uris), f)
                                               && r.calls == BatchCalls(RemoveOp, playlistId, Batches(uris)[..f + 1])
    ensures forall k :: 0 <= k < |r.calls| ==> SendsTo(r.calls[k], RemoveOp, playlistId)
  {
    BatchCallsAreBatched(RemoveOp, playlistId, uris);
    SendBatchesSendTo(c, RemoveOp, playlistId, Batches(uris));
    SendBatches(c, RemoveOp, playlistId, Batches(uris))
  }

  /** One past the last page of a playlist's items that clearing reads. */
  function ItemsEnd(c: Catalog, playlistId: string): nat {
    LastPage(ItemListing(playlistId), c.ItemPagesOf(playlistId), 0) + 1
  }

  /** No read of the playlist's item pages raises. */
  predicate ItemReadsSucceed(c: Catalog, playlistId: string) {
    forall j :: 0 <= j < ItemsEnd(c, playlistId) ==> !c.Fails(PageCall(ItemListing(playlistId), j))
  }

  /** The calls that read every item page, in order. */
  function ItemReadCalls(c: Catalog, playlistId: string): seq<Call> {
    CallsBetween(ItemListing(playlistId), 0, ItemsEnd(c, playlistId))
  }

  /** The items listed on the pages read, in order. */
  function ListedItems(c: Catalog, playlistId: string): seq<Option<string>> {
    ItemsBetween(c.ItemPagesOf(playlistId), 0, ItemsEnd(c, playlistId))
  }

  /** Whether `call` is one that clearing `playlistId` may issue: a read of
      its items or a removal from it. */
  predicate ClearsOnly(call: Call, playlistId: string) {
    (call.PlaylistItems? && call.playlistId == playlistId) || SendsTo(call, RemoveOp, playlistId)
  }

  /** `clear_playlist`. The playlist's items are read page by page (100 per
      page) until an empty page or one without `next`; a raising read raises
      at once, with no later page read and nothing removed. When no listed item has a track, no removal
      call is issued; otherwise the URIs of the listed tracks are removed in
      batches, after all reads. */
  function ClearPlaylist(c: Catalog, playlistId: string): (r: Traced<Result<()>>)
    ensures !ItemReadsSucceed(c, playlistId) ==>
              && r.value.Raised?
              && (forall k :: 0 <= k < |r.calls| ==> r.calls[k].PlaylistItems?)
              && exists f: nat :: FirstFailure(c, ItemListing(playlistId), 0, f) && f < ItemsEnd(c, playlistId)
                                  && r.calls == CallsBetween(ItemListing(playlistId), 0, f + 1)
    ensures ItemReadsSucceed(c, playlistId) && TrackUris(ListedItems(c, playlistId)) == [] ==>
              r == Traced(Ok(()), ItemReadCalls(c, playlistId))
    ensures ItemReadsSucceed(c, playlistId) ==>
              var uris := TrackUris(ListedItems(c, playlistId));
              && (r.value.Ok? <==> forall k :: 0 <= k < |Batches(uris)| ==>
                                     !c.Fails(RemoveAllOccurrences(playlistId, Batches(uris)[k])))
              && (r.value.Ok? ==> r.calls == ItemReadCalls(c, playlistId) + BatchCalls(RemoveOp, playlistId, Batches(uris)))
              && (r.value.Ok? ==> BatchedAs(BatchCalls(RemoveOp, playlistId, Batches(uris)), RemoveOp, playlistId, uris))
              && (r.value.Raised? ==>
                    exists f: nat :: FirstBatchFailure(c, RemoveOp, playlistId, Batches(uris), f)
                                     && r.calls == ItemReadCalls(c, playlistId) + BatchCalls(RemoveOp, playlistId, Batches(uris)[..f + 1]))
  {
    var listing := ItemListing(playlistId);
    var read := ReadPages(c, listing, c.ItemPagesOf(playlistId), 0);
    if read.value.Raised? then
      var f: nat :| FirstFailure(c, listing, 0, f) && read.calls == CallsBetween(listing, 0, f + 1);
      RemoveListed(c, playlistId, read)
    else
      assert read.value.value == ListedItems(c, playlistId) && read.calls == ItemReadCalls(c, playlistId);
      var uris := TrackUris(read.value.value);
      if uris == [] then
        assert Batches(uris) == [];
        RemoveListed(c, playlistId, read)
      else if RemoveCollected(c, playlistId, uris).value.Raised? then
        var f: nat :| FirstBatchFailure(c, RemoveOp, playlistId, Batches(uris), f)
                      && RemoveCollected(c, playlistId, uris).calls == BatchCalls(RemoveOp, playlistId, Batches(uris)[..f + 1]);
        RemoveListed(c, playlistId, read)
      else RemoveListed(c, playlistId, read)
  }

  /** The second half of `clear_playlist`, once the reading is done: a
      raising read ends it; otherwise the URIs of the tracks read are removed
      after the reads, with no call at all when there are none. */
  function RemoveListed(c: Catalog, playlistId: string, read: Traced<Result<seq<Option<string>>>>): (r: Traced<Result<()>>)
    ensures read.value.Raised? ==> r == Traced(Raised, read.calls)
    ensures read.value.Ok? && TrackUris(read.value.value) == [] ==> r == Traced(Ok(()), read.calls)
    ensures read.value.Ok? && TrackUris(read.value.value) != [] ==>
              var removed := RemoveCollected(c, playlistId, TrackUris(read.value.value));
              r == Traced(removed.value, read.calls + removed.calls)
  {
    match read.value
    case Raised => Traced(Raised, read.calls)
    case Ok(items) =>
      var uris := TrackUris(items);
      if |uris| == 0 then Traced(Ok(()), read.calls)
      else
        var removed := RemoveCollected(c, playlistId, uris);
        Traced(removed.value, read.calls + removed.calls)
  }

  lemma ClearsOnlyAppend(a: seq<Call>, b: seq<Call>, playlistId: string)
    requires forall k :: 0 <= k < |a| ==> ClearsOnly(a[k], playlistId)
    requires forall k :: 0 <= k < |b| ==> ClearsOnly(b[k], playlistId)
    ensures forall k :: 0 <= k < |a + b| ==> ClearsOnly((a + b)[k], playlistId)
  {
    assert forall k :: |a| <= k < |a + b| ==> (a + b)[k] == b[k - |a|];
  }

  /** Clearing reads the items of the playlist it is given and removes from
      it, and issues no other call, whether or not one raises. */
  lemma ClearPlaylistCallsOnly(c: Catalog, playlistId: string)
    ensures var calls := ClearPlaylist(c, playlistId).calls;
            forall k :: 0 <= k < |calls| ==> ClearsOnly(calls[k], playlistId)
  {
    var listing := ItemListing(playlistId);
    var read := ReadPages(c, listing, c.ItemPagesOf(playlistId), 0);
    ReadPagesCalls(c, listing, c.ItemPagesOf(playlistId), 0);
    assert forall k :: 0 <= k < |read.calls| ==> ClearsOnly(read.calls[k], playlistId);
    assert ClearPlaylist(c, playlistId) == RemoveListed(c, playlistId, read);
    if read.value.Ok? && TrackUris(read.value.value) != [] {
      var removed := RemoveCollected(c, playlistId, TrackUris(read.value.value));
      assert forall k :: 0 <= k < |removed.calls| ==> ClearsOnly(removed.calls[k], playlistId);
      ClearsOnlyAppend(read.calls, removed.calls, playlistId);
    }
  }



  /** `add_tracks_to_playlist`. The tracks' URIs are sent in batches of at
      most 100, in order; the first call that raises ends the addition. */
  function AddTracksToPlaylist(c: Catalog, playlistId: string, tracks: seq<Track>): (r: Traced<Result<()>>)
    ensures var batches := Batches(Uris(tracks));
            && (r.value.Ok? <==> forall k :: 0 <= k < |batches| ==> !c.Fails(AddItems(playlistId, batches[k])))
            && (r.value.Ok? ==> r.calls == BatchCalls(AddOp, playlistId, batches) && BatchedAs(r.calls, AddOp, playlistId, Uris(tracks)))
            && (r.value.Raised? ==> exists f: nat :: FirstBatchFailure(c, AddOp, playlistId, batches, f)
                                                    && r.calls == BatchCalls(AddOp, playlistId, batches[..f + 1]))
    ensures forall k :: 0 <= k < |r.calls| ==> SendsTo(r.calls[k], AddOp, playlistId)
  {
    BatchCallsAreBatched(AddOp, playlistId, Uris(tracks));
    SendBatchesSendTo(c, AddOp, playlistId, Batches(Uris(tracks)));
    SendBatches(c, AddOp, playlistId, Batches(Uris(tracks)))
  }
}

=== FILE: text.dfy ===
/** The few string operations of Python's `str` that the program relies on. */
module Text {

  /** Python's `str.isspace()` for one character: exactly the characters that
      `str.strip()` with no argument removes. */
  predicate IsSpace(ch: char) {
    || ch == ' '
    || ('\t' <= ch <= '\r')
    || ('\U{1C}' <= ch <= '\U{1F}')
    || ch == '\U{85}' || ch == '\U{A0}' || ch == '\U{1680}'
    || ('\U{2000}' <= ch <= '\U{200A}')
    || ch == '\U{2028}' || ch == '\U{2029}' || ch == '\U{202F}'
    || ch == '\U{205F}' || ch == '\U{3000}'
  }

  /** The first position at or after `i` that does not hold whitespace
      (`|s|` when there is none): where `str.lstrip()` cuts. */
  function SkipSpace(s: string, i: nat): (n: nat)
    requires i <= |s|
    ensures i <= n <= |s|
    ensures forall k :: i <= k < n ==> IsSpace(s[k])
    ensures n == |s| || !IsSpace(s[n])
    decreases |s| - i
  {
    if i < |s| && IsSpace(s[i]) then SkipSpace(s, i + 1) else i
  }

  /** The position just after the last non-whitespace character of `s[lo..j]`
      (`lo` when there is none): where `str.rstrip()` cuts. */
  function SkipSpaceBack(s: string, lo: nat, j: nat): (m: nat)
    requires lo <= j <= |s|
    ensures lo <= m <= j
    ensures forall k :: m <= k < j ==> IsSpace(s[k])
    ensures m == lo || !IsSpace(s[m - 1])
    decreases j
  {
    if lo < j && IsSpace(s[j - 1]) then SkipSpaceBack(s, lo, j - 1) else j
  }

  /** `r` is what is left of `s` once the whitespace before position `i` and
      after position `i + |r|` is removed. */
  ghost predicate StrippedAt(s: string, i: nat, r: string) {
    && i + |r| <= |s|
    && r == s[i..i + |r|]
    && (forall k :: 0 <= k < i ==> IsSpace(s[k]))
    && (forall k :: i + |r| <= k < |s| ==> IsSpace(s[k]))
    && (r == [] || (!IsSpace(r[0]) && !IsSpace(r[|r| - 1])))
  }

  /** Python's `str.strip()`: the infix of `s` between its leading and its
      trailing whitespace. */
  function Strip(s: string): (r: string)
    ensures exists i :: StrippedAt(s, i, r)
  {
    var i := SkipSpace(s, 0);
    var j := SkipSpaceBack(s, i, |s|);
    assert StrippedAt(s, i, s[i..j]);
    s[i..j]
  }

  /** A string with no whitespace at either end is its own strip. */
  lemma StripTrimmed(r: string)
    requires r == [] || (!IsSpace(r[0]) && !IsSpace(r[|r| - 1]))
    ensures Strip(r) == r
  {
    assert SkipSpace(r, 0) == 0;
    assert SkipSpaceBack(r, 0, |r|) == |r|;
    assert r[0..|r|] == r;
  }

  /** Stripping twice is stripping once. */
  lemma StripIdempotent(s: string)
    ensures Strip(Strip(s)) == Strip(s)
  {
    var r := Strip(s);
    var i :| StrippedAt(s, i, r);
    StripTrimmed(r);
  }

  /** Python's `str.lower()` for one character. Only the ASCII and Latin-1
      capitals are mapped; they become the character 32 code points further. */
  function LowerChar(ch: char): char {
    if 'A' <= ch <= 'Z' || ('\U{C0}' <= ch <= '\U{DE}' && ch != '\U{D7}') then
      (ch as int + 32) as char
    else ch
  }

  function Lower(s: string): (r: string)
    ensures |r| == |s|
    ensures forall k :: 0 <= k < |s| ==> r[k] == LowerChar(s[k])
  {
    seq(|s|, k requires 0 <= k < |s| => LowerChar(s[k]))
  }

  /** Equality after `lower()` on both sides, the artist-name comparison. */
  predicate SameNameIgnoringCase(a: string, b: string) {
    Lower(a) == Lower(b)
  }

  /** Python's `str.startswith(prefix)`. */
  predicate StartsWith(s: string, prefix: string) {
    |prefix| <= |s| && s[..|prefix|] == prefix
  }

  function DigitChar(d: nat): (ch: char)
    requires d < 10
    ensures '0' <= ch <= '9'
  {
    ('0' as int + d) as char
  }

  predicate AllDigits(s: string) {
    forall k :: 0 <= k < |s| ==> '0' <= s[k] <= '9'
  }

  /** Python's `str(n)` for a non-negative integer: its decimal digits, most
      significant first, with no leading zero. */
  function NatToString(n: nat): (s: string)
    ensures |s| > 0 && AllDigits(s)
    ensures n > 0 ==> s[0] != '0'
    decreases n
  {
    if n < 10 then [DigitChar(n)] else NatToString(n / 10) + [DigitChar(n % 10)]
  }

  /** The number a string of decimal digits denotes. */
  function DecimalValue(s: string): nat
    requires AllDigits(s)
  {
    if |s| == 0 then 0
    else DecimalValue(s[..|s| - 1]) * 10 + (s[|s| - 1] as int - '0' as int)
  }

  /** Reading back the decimal text of a number gives the number. */
  lemma {:induction false} DecimalRoundTrip(n: nat)
    ensures DecimalValue(NatToString(n)) == n
    decreases n
  {
    var s := NatToString(n);
    if n >= 10 {
      DecimalRoundTrip(n / 10);
      assert s[..|s| - 1] == NatToString(n / 10);
    }
  }
}

=== FILE: use_cases.dfy ===
/** The two use cases: collecting an artist's top tracks, and building (or
    refreshing) one playlist from every artist of the artist file. Console
    output is not modelled; the answer to the confirmation prompt is a
    parameter. */
module UseCases {
  import opened Wrappers
  import opened Text
  import opened Entities
  import opened Catalog
  import opened Batching
  import opened SpotifyRepository
  import opened FileLoader
  import opened PlaylistEffects

  const PlaylistUrlPrefix: string := "https://open.spotify.com/playlist/"

  /* ---------------------------------------------------------------------
     SearchArtistTracksUseCase
     --------------------------------------------------------------------- */

  /** The repository strips the name again; stripping is idempotent, so that
      second strip changes nothing. */
  lemma FindArtistOfStrippedName(c: Catalog, artistName: string)
    ensures FindArtist(c, Strip(artistName)) == FindArtist(c, artistName)
  {
    StripIdempotent(artistName);
  }

  /** The second half of `SearchArtistTracksUseCase.execute`: no artist
      gives no tracks and no further call; a resolved artist gives its top
      tracks, after the lookup's calls. */
  function TracksOfFound(c: Catalog, found: Traced<Option<Artist>>, maxTracks: int): (r: Traced<seq<Track>>)
    ensures maxTracks >= 0 ==> |r.value| <= maxTracks
    ensures OnlySearchCalls(found.calls) ==> OnlySearchCalls(r.calls)
    ensures found.value.None? ==> r == Traced([], found.calls)
    ensures |found.calls| <= |r.calls| && r.calls[..|found.calls|] == found.calls
  {
    match found.value
    case None => Traced([], found.calls)
    case Some(artist) =>
      var top := GetArtistTopTracks(c, artist, maxTracks);
      assert (found.calls + top.calls)[..|found.calls|] == found.calls;
      Traced(top.value, found.calls + top.calls)
  }

  /** `SearchArtistTracksUseCase.execute`: only search and top-track calls,
      and never more tracks than asked for. */
  function SearchArtistTracks(c: Catalog, artistName: string, maxTracks: int): (r: Traced<seq<Track>>)
    ensures OnlySearchCalls(r.calls)
    ensures maxTracks >= 0 ==> |r.value| <= maxTracks
  {
    TracksOfFound(c, FindArtist(c, Strip(artistName)), maxTracks)
  }

  /** How `SearchArtistTracksUseCase.execute` proceeds. The stripped name is
      resolved; when no artist is found the result is empty and no top-track
      call is made. Otherwise the resolved artist's top tracks are returned as
      they are. (The use case's catch-all `except` has nothing to catch here:
      both repository calls already turn their errors into "none" and
      "empty".) */
  lemma SearchArtistTracksSteps(c: Catalog, artistName: string, maxTracks: int)
    ensures var r := SearchArtistTracks(c, artistName, maxTracks);
            var found := FindArtist(c, artistName);
            && (found.value.None? ==> r.value == [] && r.calls == found.calls
                                      && forall k :: 0 <= k < |r.calls| ==> !r.calls[k].ArtistTopTracks?)
            && (found.value.Some? ==>
                  var top := GetArtistTopTracks(c, found.value.value, maxTracks);
                  r == Traced(top.value, found.calls + top.calls))
  {
    FindArtistOfStrippedName(c, artistName);
  }

  /** Every track the search returns is, in order, one of the resolved
      artist's catalog top tracks. */
  lemma SearchArtistTracksFromCatalog(c: Catalog, artistName: string, maxTracks: int)
    ensures var r := SearchArtistTracks(c, artistName, maxTracks);
            r.value != [] ==>
              var found := FindArtist(c, artistName);
              && found.value.Some? && HasCatalogId(found.value.value)
              && |r.value| <= |c.TopTracksOf(found.value.value.spotifyId.value)|
              && forall k :: 0 <= k < |r.value| ==>
                   r.value[k] == ToTrack(c.TopTracksOf(found.value.value.spotifyId.value)[k])
  {
    SearchArtistTracksSteps(c, artistName, maxTracks);
  }

  /* ---------------------------------------------------------------------
     CreatePlaylistFromArtistsUseCase
     --------------------------------------------------------------------- */

  /** The loop of `execute` over the artists, for any per-artist search:
      the tracks of every artist in artist order, each artist's in the order
      the search gives them, duplicates kept; the calls likewise. */
  function Gather(search: string -> Traced<seq<Track>>, names: seq<string>): (r: Traced<seq<Track>>)
    decreases |names|
  {
    if |names| == 0 then Traced([], [])
    else
      var first := search(names[0]);
      var rest := Gather(search, names[1..]);
      Traced(first.value + rest.value, first.calls + rest.calls)
  }

  /** The gathered tracks are each name's search result laid end to end, in
      name order, and so are the calls. */
  lemma {:induction false} GatherFlatten(search: string -> Traced<seq<Track>>, names: seq<string>)
    ensures Gather(search, names).value == Flatten(TracksOfEach(search, names))
    ensures Gather(search, names).calls == Flatten(CallsOfEach(search, names))
    decreases |names|
  {
    if |names| > 0 {
      GatherFlatten(search, names[1..]);
      assert TracksOfEach(search, names)[1..] == TracksOfEach(search, names[1..]);
      assert CallsOfEach(search, names)[1..] == CallsOfEach(search, names[1..]);
    }
  }

  /** What the search gives for each name, in name order. */
  function TracksOfEach(search: string -> Traced<seq<Track>>, names: seq<string>): (r: seq<seq<Track>>)
    ensures |r| == |names|
    ensures forall k :: 0 <= k < |names| ==> r[k] == search(names[k]).value
  {
    seq(|names|, k requires 0 <= k < |names| => search(names[k]).value)
  }

  /** The calls the search issues for each name, in name order. */
  function CallsOfEach(search: string -> Traced<seq<Track>>, names: seq<string>): (r: seq<seq<Call>>)
    ensures |r| == |names|
    ensures forall k :: 0 <= k < |names| ==> r[k] == search(names[k]).calls
  {
    seq(|names|, k requires 0 <= k < |names| => search(names[k]).calls)
  }

  /** Gathering over two consecutive lists of names is gathering over the
      first, then over the second. */
  lemma {:induction false} GatherAppend(search: string -> Traced<seq<Track>>, a: seq<string>, b: seq<string>)
    ensures Gather(search, a + b).value == Gather(search, a).value + Gather(search, b).value
    ensures Gather(search, a + b).calls == Gather(search, a).calls + Gather(search, b).calls
    decreases |a|
  {
    if |a| == 0 {
      assert a + b == b;
    } else {
      assert (a + b)[0] == a[0];
      assert (a + b)[1..] == a[1..] + b;
      GatherAppend(search, a[1..], b);
      var first := search(a[0]);
      ConcatAssociative(first.value, Gather(search, a[1..]).value, Gather(search, b).value);
      ConcatAssociative(first.calls, Gather(search, a[1..]).calls, Gather(search, b).calls);
    }
  }

  lemma MulSucc(n: nat, m: int)
    ensures (n + 1) * m == m + n * m
  {
  }

  /** When no single search gives more than `maxTracks` tracks, the whole
      gathering gives at most `maxTracks` per name. */
  lemma {:induction false} GatherBound(search: string -> Traced<seq<Track>>, names: seq<string>, maxTracks: nat)
    requires forall name :: |search(name).value| <= maxTracks
    ensures |Gather(search, names).value| <= |names| * maxTracks
    decreases |names|
  {
    if |names| > 0 {
      GatherBound(search, names[1..], maxTracks);
      MulSucc(|names[1..]|, maxTracks);
    }
  }

  /** When every single search issues only search and top-track calls, so
      does the whole gathering. */
  lemma {:induction false} GatherOnlySearchCalls(search: string -> Traced<seq<Track>>, names: seq<string>)
    requires forall name :: OnlySearchCalls(search(name).calls)
    ensures OnlySearchCalls(Gather(search, names).calls)
    decreases |names|
  {
    if |names| > 0 {
      GatherOnlySearchCalls(search, names[1..]);
      var first := search(names[0]);
      var rest := Gather(search, names[1..]);
      assert forall k :: 0 <= k < |rest.calls| ==> (first.calls + rest.calls)[|first.calls| + k] == rest.calls[k];
    }
  }

  /** A name whose search gives no tracks contributes no tracks. */
  lemma GatherSkipsEmpty(search: string -> Traced<seq<Track>>, names: seq<string>, k: nat)
    requires k < |names|
    requires search(names[k]).value == []
    ensures Gather(search, names).value == Gather(search, names[..k]).value + Gather(search, names[k + 1..]).value
  {
    var pre, post := names[..k], names[k + 1..];
    var tail := [names[k]] + post;
    assert names == pre + tail;
    GatherAppend(search, pre, tail);
    GatherAppend(search, [names[k]], post);
    assert [names[k]][1..] == [];
    var postValue := Gather(search, post).value;
    assert Gather(search, tail).value == [] + postValue;
    assert [] + postValue == postValue;
  }

  /** `SearchArtistTracksUseCase.execute` as the per-artist search of the
      playlist use case. */
  function ArtistSearch(c: Catalog, maxTracks: int): string -> Traced<seq<Track>> {
    name => SearchArtistTracks(c, name, maxTracks)
  }

  /** The tracks of every artist, in artist order, each artist's in catalog
      order, duplicates kept; only search and top-track calls are made. */
  function CollectTracks(c: Catalog, names: seq<string>, maxTracks: int): (r: Traced<seq<Track>>)
    ensures OnlySearchCalls(r.calls)
  {
    GatherOnlySearchCalls(ArtistSearch(c, maxTracks), names);
    Gather(ArtistSearch(c, maxTracks), names)
  }

  /** The aggregate is each artist's search result laid end to end, in
      artist order, and so are the calls. */
  lemma CollectTracksFlatten(c: Catalog, names: seq<string>, maxTracks: int)
    ensures CollectTracks(c, names, maxTracks).value
            == Flatten(seq(|names|, k requires 0 <= k < |names| => SearchArtistTracks(c, names[k], maxTracks).value))
    ensures CollectTracks(c, names, maxTracks).calls
            == Flatten(seq(|names|, k requires 0 <= k < |names| => SearchArtistTracks(c, names[k], maxTracks).calls))
  {
    var search := ArtistSearch(c, maxTracks);
    GatherFlatten(search, names);
    assert TracksOfEach(search, names)
           == seq(|names|, k requires 0 <= k < |names| => SearchArtistTracks(c, names[k], maxTracks).value);
    assert CallsOfEach(search, names)
           == seq(|names|, k requires 0 <= k < |names| => SearchArtistTracks(c, names[k], maxTracks).calls);
  }

  /** A single artist contributes exactly what its search returns. */
  lemma CollectTracksSingle(c: Catalog, name: string, maxTracks: int)
    ensures CollectTracks(c, [name], maxTracks) == SearchArtistTracks(c, name, maxTracks)
  {
    var search := ArtistSearch(c, maxTracks);
    assert [name][1..] == [];
    var one := SearchArtistTracks(c, name, maxTracks);
    assert search(name) == one;
    assert Gather(search, [name]) == Traced(one.value + [], one.calls + []);
    assert one.value + [] == one.value && one.calls + [] == one.calls;
  }

  /** Collecting over two consecutive lists of artists is collecting over the
      first, then over the second: tracks and calls are simply concatenated. */
  lemma CollectTracksAppend(c: Catalog, a: seq<string>, b: seq<string>, maxTracks: int)
    ensures CollectTracks(c, a + b, maxTracks).value == CollectTracks(c, a, maxTracks).value + CollectTracks(c, b, maxTracks).value
    ensures CollectTracks(c, a + b, maxTracks).calls == CollectTracks(c, a, maxTracks).calls + CollectTracks(c, b, maxTracks).calls
  {
    GatherAppend(ArtistSearch(c, maxTracks), a, b);
  }

  /** Each artist contributes at most `maxTracks` tracks. */
  lemma CollectTracksBound(c: Catalog, names: seq<string>, maxTracks: nat)
    ensures |CollectTracks(c, names, maxTracks).value| <= |names| * maxTracks
  {
    GatherBound(ArtistSearch(c, maxTracks), names, maxTracks);
  }

  /** No deduplication: listing the same artists twice collects every one of
      their tracks twice. */
  lemma CollectTracksKeepsDuplicates(c: Catalog, names: seq<string>, maxTracks: int)
    ensures CollectTracks(c, names + names, maxTracks).value
            == CollectTracks(c, names, maxTracks).value + CollectTracks(c, names, maxTracks).value
  {
    CollectTracksAppend(c, names, names, maxTracks);
  }

  /** An artist whose search gives nothing contributes nothing. */
  lemma CollectTracksSkipsEmpty(c: Catalog, names: seq<string>, k: nat, maxTracks: int)
    requires k < |names|
    requires SearchArtistTracks(c, names[k], maxTracks).value == []
    ensures CollectTracks(c, names, maxTracks).value
            == CollectTracks(c, names[..k], maxTracks).value + CollectTracks(c, names[k + 1..], maxTracks).value
  {
    GatherSkipsEmpty(ArtistSearch(c, maxTracks), names, k);
  }

  const DescriptionHead: string := "Playlist avec les groupes du Hellfest 2026 ("
  const DescriptionTail: string := " groupes)"

  /** The playlist description: the fixed text around the artist count, whose
      decimal digits read back as the count. */
  function Description(artistCount: nat): (d: string)
    ensures StartsWith(d, DescriptionHead)
    ensures |DescriptionHead| + |DescriptionTail| < |d| && d[|d| - |DescriptionTail|..] == DescriptionTail
    ensures var count := d[|DescriptionHead|..|d| - |DescriptionTail|];
            AllDigits(count) && DecimalValue(count) == artistCount
  {
    DecimalRoundTrip(artistCount);
    var d := DescriptionHead + NatToString(artistCount) + DescriptionTail;
    assert d[|DescriptionHead|..|d| - |DescriptionTail|] == NatToString(artistCount);
    d
  }

  /** The playlist URL: the fixed prefix followed by the id, unchecked. The id
      can be read back from the URL. */
  function PlaylistUrl(playlistId: string): (url: string)
    ensures StartsWith(url, PlaylistUrlPrefix)
    ensures url[|PlaylistUrlPrefix|..] == playlistId
  {
    PlaylistUrlPrefix + playlistId
  }

  /** Python truthiness of the id found by name: an empty id counts as none. */
  predicate IsExisting(found: Option<string>) {
    found.Some? && found.value != ""
  }

  /** One statement of the `try` block after another: the next runs only
      when the first did not raise, and the first raise ends the block. */
  function AndThen<T>(first: Traced<Result<()>>, next: Traced<Result<T>>): (r: Traced<Result<T>>)
    ensures r.value.Ok? <==> first.value.Ok? && next.value.Ok?
    ensures first.value.Raised? ==> r.calls == first.calls
    ensures first.value.Ok? ==> r == Traced(next.value, first.calls + next.calls)
  {
    if first.value.Raised? then Traced(Raised, first.calls) else Traced(next.value, first.calls + next.calls)
  }

  /** A statement that returns nothing, followed by the value it leads to. */
  function Yielding<T>(step: Traced<Result<()>>, v: T): (r: Traced<Result<T>>)
    ensures r.calls == step.calls
    ensures r.value.Ok? <==> step.value.Ok?
    ensures r.value.Ok? ==> r.value.value == v
  {
    Traced(if step.value.Ok? then Ok(v) else Raised, step.calls)
  }

  /** No call creates a playlist. */
  predicate NoCreation(calls: seq<Call>) {
    forall k :: 0 <= k < |calls| ==> !calls[k].UserPlaylistCreate?
  }

  lemma NoCreationAppend(a: seq<Call>, b: seq<Call>)
    requires NoCreation(a) && NoCreation(b)
    ensures NoCreation(a + b)
  {
    assert forall k :: |a| <= k < |a + b| ==> (a + b)[k] == b[k - |a|];
  }

  /** Steps that change at most one playlist and create none, run one after
      the other, still do. */
  lemma AndThenKeeps<T>(first: Traced<Result<()>>, next: Traced<Result<T>>, playlistId: string)
    requires ChangesAtMost(first.calls, playlistId) && ChangesAtMost(next.calls, playlistId)
    requires NoCreation(first.calls) && NoCreation(next.calls)
    ensures ChangesAtMost(AndThen(first, next).calls, playlistId)
    ensures NoCreation(AndThen(first, next).calls)
  {
    if first.value.Ok? {
      ChangesAtMostAppend(first.calls, next.calls, playlistId);
      NoCreationAppend(first.calls, next.calls);
    }
  }

  lemma ClearCreatesNothing(c: Catalog, playlistId: string)
    ensures NoCreation(ClearPlaylist(c, playlistId).calls)
  {
    ClearPlaylistCallsOnly(c, playlistId);
  }

  /** The branch for an existing playlist: clear it, give it the new
      description (under its own name and id), then add the tracks to it. No
      playlist is created and no other playlist is changed. */
  function ReplaceTracks(c: Catalog, playlistId: string, playlistName: string, description: string,
                         tracks: seq<Track>): (r: Traced<Result<string>>)
    ensures r.value.Ok? ==> r.value.value == playlistId
    ensures NoCreation(r.calls)
    ensures ChangesAtMost(r.calls, playlistId)
  {
    var playlist := Playlist(playlistName, description, Some(playlistId), []);
    var cleared := ClearPlaylist(c, playlistId);
    var updated := UpdatePlaylist(c, playlistId, playlist);
    var added := Yielding(AddTracksToPlaylist(c, playlistId, tracks), playlistId);
    ClearChangesOnlyItsPlaylist(c, playlistId);
    UpdateChangesOnlyItsPlaylist(c, playlistId, playlist);
    AddChangesOnlyItsPlaylist(c, playlistId, tracks);
    ClearCreatesNothing(c, playlistId);
    var tail := AndThen(updated, added);
    AndThenKeeps(updated, added, playlistId);
    AndThenKeeps(cleared, tail, playlistId);
    AndThen(cleared, tail)
  }

  /** How the existing-playlist branch proceeds: each of clearing, updating
      and adding runs only when the previous one did not raise, and the
      branch succeeds exactly when all three do, having issued their calls in
      that order. */
  lemma ReplaceTracksSteps(c: Catalog, playlistId: string, playlistName: string, description: string, tracks: seq<Track>)
    ensures var r := ReplaceTracks(c, playlistId, playlistName, description, tracks);
            var cleared := ClearPlaylist(c, playlistId);
            var updated := UpdatePlaylist(c, playlistId, Playlist(playlistName, description, Some(playlistId), []));
            var added := AddTracksToPlaylist(c, playlistId, tracks);
            && (r.value.Ok? <==> cleared.value.Ok? && updated.value.Ok? && added.value.Ok?)
            && (cleared.value.Raised? ==> r.calls == cleared.calls)
            && (cleared.value.Ok? && updated.value.Raised? ==> r.calls == cleared.calls + updated.calls)
            && (cleared.value.Ok? && updated.value.Ok? ==> r.calls == cleared.calls + (updated.calls + added.calls))
  {
  }

  /** Replace semantics, not merge: when the branch succeeds and the pages
      clearing reads list the playlist's items, the playlist ends up with the
      new description, its items with a null track, and then exactly the
      given tracks, in order; none of its earlier tracks is left. */
  lemma ReplaceTracksEffect(c: Catalog, playlistId: string, playlistName: string, description: string,
                            tracks: seq<Track>, before: Contents)
    requires before.items == ListedItems(c, playlistId)
    ensures var r := ReplaceTracks(c, playlistId, playlistName, description, tracks);
            r.value.Ok? ==> ApplyAll(playlistId, before, r.calls) == Replaced(before, description, Uris(tracks))
  {
    var r := ReplaceTracks(c, playlistId, playlistName, description, tracks);
    if r.value.Ok? {
      var cleared := ClearPlaylist(c, playlistId);
      var playlist := Playlist(playlistName, description, Some(playlistId), []);
      var updated := UpdatePlaylist(c, playlistId, playlist);
      var added := AddTracksToPlaylist(c, playlistId, tracks);
      ReplaceTracksSteps(c, playlistId, playlistName, description, tracks);
      ClearPlaylistEffect(c, playlistId, before);
      var afterClear := Contents(before.description, Nulls(before.items));
      UpdatePlaylistEffect(c, playlistId, playlist, afterClear);
      var afterUpdate := Contents(description, Nulls(before.items));
      AddTracksEffect(c, playlistId, tracks, afterUpdate);
      ApplyAllAppend(playlistId, before, cleared.calls, updated.calls + added.calls);
      ApplyAllAppend(playlistId, afterClear, updated.calls, added.calls);
    }
  }

  /** The calls of the new-playlist branch: asking for the current user,
      creating a playlist, adding items. */
  predicate CreatesAndAdds(calls: seq<Call>) {
    forall k :: 0 <= k < |calls| ==> calls[k].CurrentUser? || calls[k].UserPlaylistCreate? || calls[k].AddItems?
  }

  /** The second half of the new-playlist branch: once the playlist is
      created, the tracks are added to its id; a raising creation ends the
      branch. */
  function FillCreated(c: Catalog, created: Traced<Result<string>>, tracks: seq<Track>): (r: Traced<Result<string>>)
    ensures created.value.Raised? ==> r == Traced(Raised, created.calls)
    ensures created.value.Ok? ==> (r.value.Ok? ==> r.value.value == created.value.value)
    ensures CreatesAndAdds(created.calls) ==> CreatesAndAdds(r.calls)
    ensures created.value.Ok? && ChangesAtMost(created.calls, created.value.value) ==>
              ChangesAtMost(r.calls, created.value.value)
  {
    match created.value
    case Raised => Traced(Raised, created.calls)
    case Ok(id) =>
      var added := AddTracksToPlaylist(c, id, tracks);
      AddOnlyAdds(c, id, tracks);
      AddChangesOnlyItsPlaylist(c, id, tracks);
      CreatesAndAddsAppend(created.calls, added.calls);
      ChangesAtMostAppend(created.calls, added.calls, id);
      Traced(if added.value.Ok? then Ok(id) else Raised, created.calls + added.calls)
  }

  /** After a successful creation the branch issues exactly the addition
      calls and succeeds exactly when they do. */
  lemma FillCreatedAdds(c: Catalog, created: Traced<Result<string>>, tracks: seq<Track>)
    requires created.value.Ok?
    ensures var added := AddTracksToPlaylist(c, created.value.value, tracks);
            var r := FillCreated(c, created, tracks);
            && r.calls == created.calls + added.calls
            && (r.value.Ok? <==> added.value.Ok?)
  {
  }

  lemma CreatesAndAddsAppend(a: seq<Call>, b: seq<Call>)
    ensures CreatesAndAdds(a) && CreatesAndAdds(b) ==> CreatesAndAdds(a + b)
  {
    assert forall k :: |a| <= k < |a + b| ==> (a + b)[k] == b[k - |a|];
  }

  /** The branch for a new playlist: create a public playlist with the name
      and description, then add the tracks to the id the catalog hands out.
      Nothing is read, cleared or updated, and no other playlist is
      changed. */
  function CreateWithTracks(c: Catalog, playlistName: string, description: string, tracks: seq<Track>): (r: Traced<Result<string>>)
    ensures r.value.Ok? ==> r.value.value == c.createdId
    ensures CreatesAndAdds(r.calls)
    ensures ChangesAtMost(r.calls, c.createdId)
  {
    var created := CreatePlaylist(c, NewPlaylist(playlistName, description));
    CreateOnlyCreates(c, NewPlaylist(playlistName, description));
    FillCreated(c, created, tracks)
  }

  /** Creation asks for the user and creates, and changes no existing playlist. */
  lemma CreateOnlyCreates(c: Catalog, playlist: Playlist)
    ensures var created := CreatePlaylist(c, playlist);
            && CreatesAndAdds(created.calls)
            && ChangesAtMost(created.calls, c.createdId)
            && (created.value.Ok? ==> created.value.value == c.createdId)
  {
    var created := CreatePlaylist(c, playlist);
    assert forall k :: 0 <= k < |created.calls| ==> created.calls[k].CurrentUser? || created.calls[k].UserPlaylistCreate?;
  }

  lemma AddOnlyAdds(c: Catalog, playlistId: string, tracks: seq<Track>)
    ensures CreatesAndAdds(AddTracksToPlaylist(c, playlistId, tracks).calls)
  {
  }

  /** How the new-playlist branch proceeds: it succeeds exactly when the
      creation and every addition batch go through, after asking for the
      current user and creating the playlist with the given name and
      description, public. The new playlist then holds exactly the tracks,
      in order, under that description. */
  lemma CreateWithTracksEffect(c: Catalog, playlistName: string, description: string, tracks: seq<Track>)
    ensures var r := CreateWithTracks(c, playlistName, description, tracks);
            var created := CreatePlaylist(c, NewPlaylist(playlistName, description));
            var added := AddTracksToPlaylist(c, c.createdId, tracks);
            && (r.value.Ok? <==> created.value.Ok? && added.value.Ok?)
            && (r.value.Ok? ==>
                  && r.calls[..2] == [CurrentUser, UserPlaylistCreate(c.userId, playlistName, description, true)]
                  && ApplyAll(c.createdId, Contents(description, []), r.calls)
                     == Contents(description, AsItems(Uris(tracks))))
  {
    var r := CreateWithTracks(c, playlistName, description, tracks);
    var created := CreatePlaylist(c, NewPlaylist(playlistName, description));
    var added := AddTracksToPlaylist(c, c.createdId, tracks);
    if created.value.Ok? {
      FillCreatedAdds(c, created, tracks);
      assert r.calls == created.calls + added.calls;
      var id := c.createdId;
      var empty := Contents(description, []);
      ApplyAllAppend(id, empty, created.calls, added.calls);
      ApplyAllUntouched(id, empty, created.calls);
      AddTracksEffect(c, id, tracks, empty);
      assert [] + AsItems(Uris(tracks)) == AsItems(Uris(tracks));
    }
  }

  /** The find-or-create-and-replace step, the body of the `try`: looks the
      playlist up by name, then replaces the tracks of the playlist found or
      creates one with them. The result is the id of the playlist that
      received the tracks, or a raise. */
  function Synchronise(c: Catalog, playlistName: string, description: string, tracks: seq<Track>): (r: Traced<Result<string>>)
    ensures var found := FindPlaylistByName(c, playlistName);
            found.value.Raised? ==> r == Traced(Raised, found.calls)
  {
    var found := FindPlaylistByName(c, playlistName);
    match found.value
    case Raised => Traced(Raised, found.calls)
    case Ok(existing) =>
      var step := if IsExisting(existing) then ReplaceTracks(c, existing.value, playlistName, description, tracks)
                  else CreateWithTracks(c, playlistName, description, tracks);
      Traced(step.value, found.calls + step.calls)
  }

  /** Which branch the step takes: the playlist found by name when its id is
      not empty, otherwise a new one; the lookup's calls come first. */
  lemma SynchroniseBranches(c: Catalog, playlistName: string, description: string, tracks: seq<Track>)
    ensures var found := FindPlaylistByName(c, playlistName);
            var r := Synchronise(c, playlistName, description, tracks);
            found.value.Ok? ==>
              if IsExisting(found.value.value) then
                var step := ReplaceTracks(c, found.value.value.value, playlistName, description, tracks);
                r == Traced(step.value, found.calls + step.calls)
              else
                var step := CreateWithTracks(c, playlistName, description, tracks);
                r == Traced(step.value, found.calls + step.calls)
  {
  }

  /** The playlist that receives the tracks: the existing one, when found,
      or the new one. */
  function Target(c: Catalog, playlistName: string): string {
    var found := FindPlaylistByName(c, playlistName);
    if found.value.Ok? && IsExisting(found.value.value) then found.value.value.value else c.createdId
  }

  /** Looking a playlist up changes none. */
  lemma LookupChangesNothing(c: Catalog, playlistName: string)
    ensures var calls := FindPlaylistByName(c, playlistName).calls;
            forall k :: 0 <= k < |calls| ==> Changes(calls[k]) == None
  {
    var calls := FindPlaylistByName(c, playlistName).calls;
    assert forall k :: 0 <= k < |calls| ==> calls[k].CurrentUserPlaylists?;
  }

  /** The step changes no playlist but its target, whatever raises. */
  lemma SynchroniseChangesOnlyTarget(c: Catalog, playlistName: string, description: string, tracks: seq<Track>)
    ensures ChangesAtMost(Synchronise(c, playlistName, description, tracks).calls, Target(c, playlistName))
  {
    var found := FindPlaylistByName(c, playlistName);
    var target := Target(c, playlistName);
    LookupChangesNothing(c, playlistName);
    assert ChangesAtMost(found.calls, target);
    if found.value.Ok? {
      SynchroniseBranches(c, playlistName, description, tracks);
      if IsExisting(found.value.value) {
        ChangesAtMostAppend(found.calls, ReplaceTracks(c, target, playlistName, description, tracks).calls, target);
      } else {
        ChangesAtMostAppend(found.calls, CreateWithTracks(c, playlistName, description, tracks).calls, target);
      }
    }
  }

  /** Replace semantics of the whole step on an existing playlist: when it
      succeeds, the playlist found by name holds the new description, its
      null-track items, and exactly the given tracks, in order. */
  lemma SynchroniseReplaces(c: Catalog, playlistName: string, description: string, tracks: seq<Track>, before: Contents)
    requires before.items == ListedItems(c, Target(c, playlistName))
    ensures var found := FindPlaylistByName(c, playlistName);
            var r := Synchronise(c, playlistName, description, tracks);
            found.value.Ok? && IsExisting(found.value.value) && r.value.Ok? ==>
              && r.value.value == found.value.value.value
              && ApplyAll(r.value.value, before, r.calls) == Replaced(before, description, Uris(tracks))
  {
    var found := FindPlaylistByName(c, playlistName);
    var r := Synchronise(c, playlistName, description, tracks);
    if found.value.Ok? && IsExisting(found.value.value) && r.value.Ok? {
      var id := found.value.value.value;
      SynchroniseBranches(c, playlistName, description, tracks);
      var step := ReplaceTracks(c, id, playlistName, description, tracks);
      assert forall k :: 0 <= k < |found.calls| ==> found.calls[k].CurrentUserPlaylists?;
      ApplyAllAppend(id, before, found.calls, step.calls);
      ApplyAllUntouched(id, before, found.calls);
      ReplaceTracksEffect(c, id, playlistName, description, tracks, before);
    }
  }

  /** Running the step again with the same tracks, once the first run
      succeeded, leaves the playlist as the first run left it. */
  lemma SynchroniseIdempotent(c: Catalog, playlistName: string, description: string, tracks: seq<Track>, before: Contents)
    requires before.items == ListedItems(c, Target(c, playlistName))
    ensures var found := FindPlaylistByName(c, playlistName);
            var r := Synchronise(c, playlistName, description, tracks);
            found.value.Ok? && IsExisting(found.value.value) && r.value.Ok? ==>
              var after := ApplyAll(r.value.value, before, r.calls);
              Replaced(after, description, Uris(tracks)) == after
  {
    SynchroniseReplaces(c, playlistName, description, tracks, before);
    ReplaceIdempotent(before, description, Uris(tracks));
  }

  /** Running the whole step a second time, against a catalog in which the
      lookup finds the same playlist and whose item pages list what the first
      run left, changes nothing once both runs succeed. */
  lemma SynchroniseTwice(c: Catalog, c2: Catalog, playlistName: string, description: string, tracks: seq<Track>, before: Contents)
    requires before.items == ListedItems(c, Target(c, playlistName))
    ensures var found := FindPlaylistByName(c, playlistName);
            var r := Synchronise(c, playlistName, description, tracks);
            var r2 := Synchronise(c2, playlistName, description, tracks);
            found.value.Ok? && IsExisting(found.value.value) && r.value.Ok? && r2.value.Ok?
            && FindPlaylistByName(c2, playlistName).value == found.value
            && ListedItems(c2, r.value.value) == ApplyAll(r.value.value, before, r.calls).items ==>
              var after := ApplyAll(r.value.value, before, r.calls);
              && r2.value.value == r.value.value
              && ApplyAll(r2.value.value, after, r2.calls) == after
  {
    var found := FindPlaylistByName(c, playlistName);
    var r := Synchronise(c, playlistName, description, tracks);
    var r2 := Synchronise(c2, playlistName, description, tracks);
    if found.value.Ok? && IsExisting(found.value.value) && r.value.Ok? && r2.value.Ok?
       && FindPlaylistByName(c2, playlistName).value == found.value
       && ListedItems(c2, r.value.value) == ApplyAll(r.value.value, before, r.calls).items
    {
      SynchroniseReplaces(c, playlistName, description, tracks, before);
      var after := ApplyAll(r.value.value, before, r.calls);
      assert Target(c2, playlistName) == r.value.value;
      SynchroniseReplaces(c2, playlistName, description, tracks, after);
      ReplaceIdempotent(before, description, Uris(tracks));
    }
  }

  /** The confirmation prompt was shown and not answered `o` (after `lower()`). */
  predicate Declined(requireConfirmation: bool, response: string): (d: bool)
    ensures d <==> requireConfirmation && response != "o" && response != "O"
  {
    assert Lower(response) == "o" <==> |response| == 1 && LowerChar(response[0]) == 'o' by {
      if |response| == 1 && LowerChar(response[0]) == 'o' {
        assert Lower(response) == [LowerChar(response[0])];
      }
    }
    assert |response| == 1 ==> (response == "o" <==> response[0] == 'o') && (response == "O" <==> response[0] == 'O');
    requireConfirmation && Lower(response) != "o"
  }

  /** What `execute` does once the tracks are collected: nothing more when
      there are none; otherwise the find-or-create-and-replace step, whose
      raise becomes no result and whose success becomes the playlist's URL. */
  function Publish(c: Catalog, playlistName: string, artistCount: nat, collected: Traced<seq<Track>>): (r: Traced<Option<string>>)
    ensures |collected.calls| <= |r.calls| && r.calls[..|collected.calls|] == collected.calls
    ensures collected.value == [] ==> r == Traced(None, collected.calls)
    ensures r.value.Some? ==> StartsWith(r.value.value, PlaylistUrlPrefix)
  {
    if collected.value == [] then Traced(None, collected.calls)
    else
      var synced := Synchronise(c, playlistName, Description(artistCount), collected.value);
      var calls := collected.calls + synced.calls;
      assert calls[..|collected.calls|] == collected.calls;
      match synced.value
      case Ok(id) => Traced(Some(PlaylistUrl(id)), calls)
      case Raised => Traced(None, calls)
  }

  /** `CreatePlaylistFromArtistsUseCase.execute`. A declined confirmation
      ends the run before any catalog call. Otherwise the tracks of every
      artist of the file are collected first, and when there are none the
      run ends with no call but searches: no lookup, creation, clearing or
      addition. A result is always a playlist URL. */
  function Execute(c: Catalog, file: ArtistFile, playlistName: string, maxTracks: int,
                   requireConfirmation: bool, response: string): (r: Traced<Option<string>>)
    ensures Declined(requireConfirmation, response) ==> r == Traced(None, [])
    ensures !Declined(requireConfirmation, response) ==>
              var collected := CollectTracks(c, LoadArtists(file), maxTracks);
              && |collected.calls| <= |r.calls| && r.calls[..|collected.calls|] == collected.calls
              && (collected.value == [] ==> r.value.None? && OnlySearchCalls(r.calls))
    ensures r.value.Some? ==> StartsWith(r.value.value, PlaylistUrlPrefix)
  {
    if Declined(requireConfirmation, response) then Traced(None, [])
    else
      var names := LoadArtists(file);
      Publish(c, playlistName, |names|, CollectTracks(c, names, maxTracks))
  }

  /** Once tracks are collected, the run's result is the URL of the playlist
      the step synchronised, or none exactly when the step raised; its calls
      are the searches followed by the step's. */
  lemma ExecuteSynchronises(c: Catalog, file: ArtistFile, playlistName: string, maxTracks: int,
                            requireConfirmation: bool, response: string)
    ensures var r := Execute(c, file, playlistName, maxTracks, requireConfirmation, response);
            var names := LoadArtists(file);
            var collected := CollectTracks(c, names, maxTracks);
            !Declined(requireConfirmation, response) && collected.value != [] ==>
              var synced := Synchronise(c, playlistName, Description(|names|), collected.value);
              && r.calls == collected.calls + synced.calls
              && (r.value.Some? <==> synced.value.Ok?)
              && (r.value.Some? ==> r.value.value == PlaylistUrl(synced.value.value))
  {
  }

  /** Searches change no playlist. */
  lemma SearchesChangeNothing(calls: seq<Call>, playlistId: string, s: Contents)
    requires OnlySearchCalls(calls)
    ensures ApplyAll(playlistId, s, calls) == s
  {
    assert forall k :: 0 <= k < |calls| ==> !Touches(calls[k], playlistId);
    ApplyAllUntouched(playlistId, s, calls);
  }

  lemma PublishChangesOnlyTarget(c: Catalog, playlistName: string, artistCount: nat, collected: Traced<seq<Track>>,
                                 other: string, s: Contents)
    requires OnlySearchCalls(collected.calls)
    requires other != Target(c, playlistName)
    ensures ApplyAll(other, s, Publish(c, playlistName, artistCount, collected).calls) == s
  {
    SearchesChangeNothing(collected.calls, other, s);
    if collected.value != [] {
      var synced := Synchronise(c, playlistName, Description(artistCount), collected.value);
      assert Publish(c, playlistName, artistCount, collected).calls == collected.calls + synced.calls;
      SynchroniseChangesOnlyTarget(c, playlistName, Description(artistCount), collected.value);
      ApplyAllAppend(other, s, collected.calls, synced.calls);
      OthersUnchanged(Target(c, playlistName), synced.calls, other, s);
    }
  }

  /** A run changes no playlist but the target, whatever raises, and none at
      all when it is declined. */
  lemma ExecuteChangesOnlyTarget(c: Catalog, file: ArtistFile, playlistName: string, maxTracks: int,
                                 requireConfirmation: bool, response: string, other: string, s: Contents)
    requires other != Target(c, playlistName)
    ensures ApplyAll(other, s, Execute(c, file, playlistName, maxTracks, requireConfirmation, response).calls) == s
  {
    if !Declined(requireConfirmation, response) {
      var names := LoadArtists(file);
      PublishChangesOnlyTarget(c, playlistName, |names|, CollectTracks(c, names, maxTracks), other, s);
    }
  }

  /** A run that finds no track changes no playlist at all. */
  lemma ExecuteWithoutTracksChangesNothing(c: Catalog, file: ArtistFile, playlistName: string, maxTracks: int,
                                           requireConfirmation: bool, response: string, playlistId: string, s: Contents)
    ensures CollectTracks(c, LoadArtists(file), maxTracks).value == [] ==>
              ApplyAll(playlistId, s, Execute(c, file, playlistName, maxTracks, requireConfirmation, response).calls) == s
  {
    var r := Execute(c, file, playlistName, maxTracks, requireConfirmation, response);
    if CollectTracks(c, LoadArtists(file), maxTracks).value == [] && !Declined(requireConfirmation, response) {
      SearchesChangeNothing(r.calls, playlistId, s);
    }
  }
}

=== FILE: wrappers.dfy ===
/** Optional values and the outcome of a call that may raise. */
module Wrappers {

  /** Python's `Optional[T]`: `None` or a present value. */
  datatype Option<+T> = None | Some(value: T)

  /** The outcome of a step whose exception is not caught locally: it either
      returns a value or raises (the exception's message is only printed, so it
      carries nothing here). */
  datatype Result<+T> = Ok(value: T) | Raised
}
